=== FILE: README.md ===
# jwt-pizza-service telemetry and auth decisions, in Dafny

This project models the observability core of the jwt-pizza-service HTTP
service and the decision logic of its auth router, and proves properties of
that model. It covers:

- **Metric window** (`Metrics`, from `src/metrics.js`). This is one window of
  counters:
  - per-method request counts under the fixed keys GET, POST, PUT and DELETE;
  - the set of active user ids;
  - auth success and failure counts;
  - items sold, revenue and failed order creations;
  - latency samples.

  The record operations (`requestTracker`, `recordAuthAttempt` and
  `recordOrder`) are pure window updates. So are `resetCounters` and the nine
  report points that `reportMetrics` renders. The flush is modelled twice:
  once as written, and once with the window swapped out before the send.
- **Measurement lines** (`LineProtocol`, from `MetricBuilder`). A line is
  `name,k=v,... f=v,...` when there are tags and `name f=v,...` when there
  are none. Lines are kept in insertion order and joined by a separator.
  Nothing is escaped.
- **Retry loop** (`Delivery`, from `sendToGrafana`). It makes at most
  `retries` attempts (3 by default) and stops at the first ok response. After
  every failed attempt except the last it waits `1000 × attempt` ms, so the
  backoff is linear.
- **Structured logger** (`Logger`, from `src/logger.js`). This covers:
  - `_truncate`;
  - the `info`/`warn`/`error` wrappers;
  - the HTTP-request, database-query and exception records;
  - the Loki push payload, with its labels, nanosecond timestamp and JSON
    message;
  - the component default.
- **Request capture middleware** (`HttpLogger`, from
  `src/middleware/httpLogger.js`). It is modelled as a state machine over the
  wrapped `send`/`json` calls and `finish` events.
- **Auth router decisions** (`Auth`, from `src/routes/authRouter.js`). These
  are:
  - bearer-token extraction;
  - the `isRole` check;
  - the session lookup and the `authenticateToken` gate;
  - the branches of register, login, logout and update.

  The user store, bcrypt, jwt signing and verification are function
  parameters. The router's `warn` calls pass a single object. That object
  lands in the logger's `type` position, so the posted `type` label is
  the object and the body is the default `{}`.
- **Middleware order** (`Service`, from `src/service.js`). This covers only
  the order of the request tracker and the session middleware.

JavaScript values are the datatype `Json.JsValue`, which covers `undefined`,
`null`, booleans, integers, strings, arrays, and objects as ordered property
lists. Truthiness and `JSON.stringify` are given concrete definitions.
Supporting modules are `Wrappers` (`Option`), `Collections` (clamping,
sums and the key list of an entry list) and `Text` (join, split, and
decimal numerals, with their round trips).

## Model

| member | source | states |
|---|---|---|
| LineProtocol.LineShape | src/metrics.js:17-19 | a line starts with the measurement name, the next character is `,` exactly when the tag text is non-empty, and the line ends with the field text |
| LineProtocol.AddMeasurement | src/metrics.js:10-21 | exactly one line is appended, the earlier lines are kept unchanged, and the new line is the measurement's text |
| LineProtocol.AddAllKeepsOrder | src/metrics.js:20-25 | adding a list of measurements yields one line per measurement in insertion order, after the lines already present |
| LineProtocol.TagTextEmptyIff | src/metrics.js:11-19 | the joined tag text is empty exactly when there are no tags, so the truthiness test on `tagStr` chooses between the two line shapes by "has tags" |
| LineProtocol.TwoTagLine | src/metrics.js:17-19 | the exact text of a line with two tags and one field: `name,k1=v1,k2=v2 f=v` |
| LineProtocol.ParseLineOfLine | src/metrics.js:11-19 | a measurement with no delimiter in any name, key or value and at least one field is read back from its line unchanged |
| LineProtocol.LineIsNotInjective | src/metrics.js:11-16 | because nothing is escaped, the tag value `a,b=c` renders the same line as the two tags `source=a`, `b=c` |
| LineProtocol.ToStringSplitsBack | src/metrics.js:23-25 | the newline-joined lines split back into exactly those lines when none of them holds a newline |
| Delivery.SendToGrafana | src/metrics.js:180-205 | the loop satisfies `Conforms`: at most `retries` attempts, all attempts before the last failed, delivered only on an ok reply, all attempts used when never delivered, and waits of 1000, 2000, … ms between attempts |
| Delivery.ConformsDeterminesOutcome | src/metrics.js:181-194 | the endpoint's answers fix the outcome uniquely, and delivery happens exactly when some attempt numbered 1 to `retries` is answered ok |
| Delivery.BackoffTotal | src/metrics.js:197-202 | the waits grow linearly: n waits add up to 1000·n(n+1)/2 ms |
| Delivery.AlwaysFailingEndpoint | src/metrics.js:180-202 | with the default of 3 and no ok reply there are three attempts, waits of 1000 and 2000 ms, and no delivery |
| Metrics.Bump | src/metrics.js:57-58 | incrementing a present key raises that key's count by one and keeps every other count and the key list; an absent key changes nothing |
| Metrics.RequestTracker | src/metrics.js:55-70 | the method's count grows by one exactly when the method is a key, other counts are unchanged, a user id joins the active set exactly when it is truthy (non-zero), and nothing else changes |
| Metrics.CountsAfterEvents | src/metrics.js:56-62 | after any sequence of recording calls each key's count grew by the number of requests with that method, keys are kept, and other methods are never counted |
| Metrics.CountsFromInitial | src/metrics.js:36 | from the constructor's window the four keys stay in place, each count equals that method's number of requests, and any other method reads 0 |
| Metrics.ActiveUserIdempotent | src/metrics.js:64-67 | recording the same user id twice leaves the active set as after the first time |
| Metrics.TwoDistinctUsers | src/metrics.js:64-67 | two distinct truthy ids from a fresh window make the active-user size 2 |
| Metrics.RecordAuthAttempt | src/metrics.js:73-81 | a success raises the success counter by one and a failure raises the failure counter by one; the other counter and the rest of the window are unchanged |
| Metrics.SumPrices | src/metrics.js:88-91 | the accumulation loop computes the left-to-right sum of the item prices |
| Metrics.RecordOrder | src/metrics.js:84-104 | a success with an array adds its length to sold and its price sum to revenue, and appends the latency only when one is given; anything else adds one failure and changes nothing else |
| Metrics.Reset | src/metrics.js:208-220 | every method key is kept with count 0 and all other state returns to the initial values; for a valid window the result is the constructor's window |
| Metrics.MeanLatency | src/metrics.js:155-159 | 0 with no samples, otherwise a value whose product with the sample count is the sample sum |
| Metrics.Report | src/metrics.js:111-164 | one point per request-count entry followed by five summary points, each tagged first with `source` |
| Metrics.ReportContents | src/metrics.js:111-164 | a valid window gives nine points: `http_requests` for GET, POST, PUT and DELETE in that order with their counts, then active_users, auth_attempts, system_metrics, pizza_metrics and pizza_latency, each tagged with the source alone and carrying the active-user count, the auth counters, the host figures, the pizza figures and the mean latency |
| Metrics.Render | src/metrics.js:12-16 | an integer field value, or an integral average, is written as a decimal numeral that reads back as that value; host figures are written as they are; any other average is left to JavaScript's number conversion |
| Metrics.HttpPoint | src/metrics.js:112-118 | report point i < 4 of a valid window is `http_requests` tagged with the source and the i-th method, with that method's count as `total` |
| Metrics.HttpRequestsLine | src/metrics.js:112-118 | report line i < 4 of a valid window is exactly `http_requests,source=S,method=M total=N`, where N is the count of M |
| Metrics.GetsAndPostsReported | src/metrics.js:112-118 | three GET and two POST requests from a fresh window give the first two lines `…method=GET total=3` and `…method=POST total=2` |
| Metrics.EncodeSplitsIntoLines | src/metrics.js:166 | the encoded batch splits on newlines back into one line per point, in order |
| Metrics.EventsSplit | src/metrics.js:208-220 | recording on top of a window equals recording on its reset copy with the window added back: counts add, sets unite and samples concatenate |
| Metrics.ReportMetricsAsWritten | src/metrics.js:107-177 | the sent batch is the encoding of the window's report, the send follows the retry contract, and the window after the flush is the initial one, whatever was recorded during the send |
| Metrics.RecordDuringSendIsLost | src/metrics.js:170-173 | an auth success recorded while the send is awaited appears in neither the sent batch nor the following window |
| Metrics.ReportMetrics | src/metrics.js:107-173 | with the window swapped out before the send, every call recorded during the send is counted exactly once across the sent window and the next one |
| Json.Stringify | src/logger.js:110-111 | `JSON.stringify` gives no text exactly for `undefined`, and otherwise a non-empty text whose first character opens a JSON literal, number, string, array or object |
| Logger.ComponentLabel | src/logger.js:8 | the configured component when it is truthy, otherwise `jwt-pizza-service-dev` |
| Logger.TextOf | src/logger.js:152 | a truthy value measures as non-empty text: a string as itself, anything else as its JSON text |
| Logger.Truncate | src/logger.js:150-156 | `N/A` for falsy data; the text unchanged when it fits; otherwise the first `maxLength` characters plus `...`; never longer than `maxLength + 3` |
| Logger.TruncateIdempotent | src/logger.js:150-156 | truncating an excerpt again with the same limit changes nothing, as long as `N/A` fits |
| Logger.DefaultLimitExamples | src/logger.js:150-155 | with the default limit of 200 a 250-character string becomes its first 200 characters plus `...` (203 characters), and the empty string becomes `N/A` |
| Logger.ExcerptPlaceholderIff | src/logger.js:110-111 | a serialised body is reported as `N/A` exactly when it is `undefined`, and an excerpt is at most 203 characters |
| Logger.BodyOrDefault | src/logger.js:71 | a missing body becomes `{}` and any other body is kept |
| Logger.Log | src/logger.js:71-91 | the call carries the wrapper's level (`info`, `warn` or `error`, one per wrapper), the type unchanged, and the body unchanged or `{}` when it is missing |
| Logger.HttpRecordProps | src/logger.js:105-112 | the record has exactly the keys method, path, statusCode, hasAuth, requestBody and responseBody in that order, each holding the given value |
| Logger.LogHttpRequest | src/logger.js:97-115 | an `info` record of type `http_request`; method, path, status and auth flag pass through; both bodies are serialised and cut to 200 characters |
| Logger.LogDbQuery | src/logger.js:121-129 | an `info` record of type `db_query` with the query cut down, the parameters serialised and cut down, and the duration as given |
| Logger.LogException | src/logger.js:135-142 | an `error` record of type `exception` holding only the cut-down message and stack |
| Logger.LogExceptionDropsExtras | src/logger.js:135-142 | extra properties passed by the caller, such as the error handler's method, url and user, leave the record unchanged |
| Logger.Timestamp | src/logger.js:21 | the timestamp is a string of decimal digits |
| Logger.TimestampIsNanoseconds | src/logger.js:21 | the timestamp reads back as milliseconds × 1,000,000 |
| Logger.LokiPayloadShape | src/logger.js:20-36 | the payload has exactly one stream labelled with component, level and type, and exactly one `[timestamp, JSON(body)]` pair with the timestamp in nanoseconds |
| Logger.PostedLabels | src/logger.js:8-36 | a wrapper call posts one stream labelled with the wrapper's level and the call's type, and a non-empty component that equals the configured name exactly when that name is truthy; its message is the JSON text of the body, or of `{}` when none was given |
| Logger.LevelLabelsDiffer | src/logger.js:71-91 | two different wrappers never post the same level label |
| HttpLogger.HasAuth | src/middleware/httpLogger.js:7 | a request without an authorization header, or with an empty one, is unauthenticated; any other header value sets the flag |
| HttpLogger.ShallowCopy | src/middleware/httpLogger.js:10 | the captured body is always an object: an object body is kept as it is, an array becomes index-keyed properties, and `null` or any other non-object becomes `{}` |
| HttpLogger.CopiedArrayIndexes | src/middleware/httpLogger.js:10 | property `i` of a copied array reads back element `i` |
| HttpLogger.Start | src/middleware/httpLogger.js:6-13 | the capture starts with the request's method and URL, an auth flag set exactly when the header is present and non-empty, the shallow copy of the request body, a `null` response body, and no forwarded calls or logs |
| HttpLogger.Step | src/middleware/httpLogger.js:19-48 | a `send` or `json` call keeps its body and reaches the matching original; a `finish` appends exactly one record built from the state so far and changes nothing else; the captured request part never changes |
| HttpLogger.RunFacts | src/middleware/httpLogger.js:13-48 | after any event sequence: the request part is unchanged; the kept response body is the last `send`/`json` argument (or the initial one); every such call reaches the original, in order; exactly one log record is added per `finish`, after the earlier ones |
| HttpLogger.FinishRecord | src/middleware/httpLogger.js:32-48 | the record logged at a `finish` carries the request's method, URL, auth flag and body copy, that `finish`'s status, and the last body sent before it, or `null` |
| HttpLogger.JsonThenInternalSend | src/middleware/httpLogger.js:19-29 | `json(v)` followed by the framework's internal `send` of the serialised text forwards both calls and logs the excerpt of the serialised text |
| Auth.ReadAuthToken | src/routes/authRouter.js:191-197 | `null` exactly when the header is missing or empty; `undefined` for a header without a space; a returned token never contains a space |
| Auth.TokenBetweenSpaces | src/routes/authRouter.js:191-197 | the token is the text between the first space and the next space, or the end of the header |
| Auth.BearerRoundTrip | src/routes/authRouter.js:191-195 | `Bearer t` yields `t` for any token without spaces |
| Auth.FindRole | src/routes/authRouter.js:72-73 | a found entry is one of the user's roles and carries the requested role |
| Auth.IsRole | src/routes/authRouter.js:72-73 | the user has the role exactly when some role entry carries it |
| Auth.IsRoleIff | src/routes/authRouter.js:72-73 | the role check holds exactly when some role entry carries the role |
| Auth.SetAuthUser | src/routes/authRouter.js:65-80 | a session user is attached exactly when the token is a non-empty string, the store lists it and it verifies, and that user is the verified one |
| Auth.AuthenticateToken | src/routes/authRouter.js:83-88 | 401 `unauthorized` exactly when there is no session user, otherwise the request goes on |
| Auth.BearerGate | src/routes/authRouter.js:65-88 | a `Bearer t` header with a non-empty, space-free token passes the gate exactly when the store lists `t` and it verifies |
| Auth.NoTokenRejected | src/routes/authRouter.js:65-88 | a missing header, an empty one, or one without a space is answered 401 whatever the store says |
| Auth.DuplicateWarning | src/routes/authRouter.js:103-108 | a `warn` record whose type is the object with the message naming the email, the method, the URL and the existing user's id, and whose body is `{}` |
| Auth.FailedLoginWarning | src/routes/authRouter.js:138-142 | a `warn` record whose type is the object with the message naming the email, the method and the URL (no user), and whose body is `{}` |
| Auth.Register | src/routes/authRouter.js:94-120 | 400 `name, email, and password are required` exactly when name, email or password is falsy; 409 `User already exists.` with one warning exactly when the email is taken; otherwise always 201 with the stored user (hashed password, single role `diner`) and its token |
| Auth.Login | src/routes/authRouter.js:128-147 | 400 `email and password are required` exactly when email or password is falsy; 401 `Invalid email or password.` with one warning exactly when the credentials match no user; otherwise always 200 with that user and its token |
| Auth.Logout | src/routes/authRouter.js:152-159 | 401 `unauthorized` without a session user; otherwise 200 `logout successful`, revoking the header's token exactly when it is truthy |
| Auth.LogoutRevokesBearer | src/routes/authRouter.js:152-159 | a signed-in logout with a `Bearer t` header for a non-empty, space-free token answers 200 `logout successful` and revokes exactly `t` |
| Auth.NumberOf | src/routes/authRouter.js:167 | a route parameter gives a number exactly when it is a non-empty run of decimal digits |
| Auth.Update | src/routes/authRouter.js:165-175 | allowed exactly when there is a session user whose id equals the numeric parameter or who has the admin role; otherwise 401 without a user and 403 with one, both with the message `unauthorized` |
| Auth.OwnIdAllowed | src/routes/authRouter.js:167-171 | a user updating their own decimal id is always allowed |
| Auth.RegisterAsWritten | src/routes/authRouter.js:94-120 | as written, registration throws exactly when the fields are truthy and the email is taken, the error is the TypeError of reading `warn` from `undefined`, and no warning is ever logged |
| Auth.LoginAsWritten | src/routes/authRouter.js:128-147 | as written, login throws exactly when the fields are truthy and the credentials match no user, with the same TypeError, and no warning is ever logged |
| Auth.RegisterAsWrittenDiffers | src/routes/authRouter.js:101-110 | as written, a registration whose email is taken throws instead of answering 409, and every other registration gets the intended answer |
| Auth.LoginAsWrittenDiffers | src/routes/authRouter.js:135-144 | as written, a login with unknown credentials throws instead of answering 401, and every other login gets the intended answer |
| Auth.UnknownUserThrows | src/routes/authRouter.js:135-143 | a concrete login with a well-formed body and unknown credentials ends in the thrown TypeError |
| Service.AdmitAsWritten | src/service.js:23-25 | with the tracker mounted before the session middleware, the request's method is counted (one more when it is a key, every other count unchanged) but the active-user set never changes |
| Service.Admit | src/service.js:23-25 | with the session user attached first, the request's method is counted the same way and the active set gains exactly the signed-in user's truthy id |
| Service.OrdersAgreeOnCounts | src/service.js:23-25 | both orders give the same session user and the same window apart from the active-user set |
| Service.SignedInUserMissed | src/service.js:23-25 | a valid bearer session for user 7 is counted as active in the intended order and not counted as mounted |

## Left out

- Network I/O is not modelled. The `fetch` calls to the metrics endpoint and the log endpoint are left out. A metrics attempt is only an ok/not-ok answer (`reply(k)`). The log POST and its `catch` are not modelled; a record is described by its `sendLogToLoki` arguments and payload.
- Console output, the `setInterval` reporting timer, and `setTimeout` sleeps are not modelled. Waits are recorded as millisecond values. `Date.now()` is the parameter `nowMs`.
- Host sampling (`os.loadavg`, `cpus`, `totalmem`, `freemem`) and `toFixed` are not modelled. CPU and memory figures are already-formatted strings in `HostSample`.
- Prices, revenue and latencies are integers, so JavaScript float sums are not modelled. A non-integral average latency is written through the `showReal` parameter, because JavaScript's number-to-text conversion is not modelled.
- `JSON.stringify` is modelled only for integers, strings, booleans, `null`, arrays and plain objects. `toJSON`, cyclic values (which throw), non-finite numbers and surrogate-pair escaping are not modelled.
- String lengths count characters, not UTF-16 code units.
- The database, bcrypt, and jwt signing and verification are function parameters or values. Errors thrown by the store are not modelled: `userByEmail` and `userByCredentials` answer with a user or with none. `setAuth`'s `DB.loginUser` and `clearAuth`'s `DB.logoutUser` show up only as the token they act on.
- Express itself is not modelled: routing, `asyncHandler`, the body parser, the error middleware and the response objects. `src/config.js`, `src/endpointHelper.js` and `src/database/database.js` are not part of this model. The role names `admin` and `diner` are the ones the router's documented responses use.
- The return values of `send` and `json` come from Express, so they are not modelled. The model states only that every call reaches the original method with the same argument, in order.
- Method names that are inherited object properties (such as `constructor`) are not modelled. `Metrics.RequestTracker` counts only the four own keys, and Node's HTTP parser accepts only standard method names.
- Auth.NumberOf: weaker than `Number()`. Only a run of decimal digits is read as a number; signs, whitespace, exponents and hex literals count as `NaN`.
- Logger.Truncate: the length bound is stated only for a non-negative `maxLength`. With a negative limit, `substring` clamps to 0 and the result is `...`.
- The request-body copy is shallow (`{ ...body }`), so nested objects stay shared with `req.body`. `JSON.stringify` runs only at `finish`, so a handler that mutates a nested object before then changes the logged `requestBody`. The model has no shared mutable objects: `HttpLogger.Start` fixes the copy when the middleware runs.
- Logging failures inside the middleware's `finish` handler are caught and reported on the console. The model has no failure path for a log call, so this is not modelled.
- The traffic simulation script and the test files are not modelled.
- Where the service's documentation describes other behaviour, the code is followed:
  - The line encoder escapes nothing (`LineProtocol.LineIsNotInjective`).
  - The log sink makes a single attempt with no retry.
  - The window is reset only after a send returns inside the `try`.
  - The documentation counts a successful order whose items are absent as a sale of zero items. `recordOrder` (src/metrics.js:85) counts it as a failure, and `Metrics.RecordOrder` follows the code.
  - A login whose credentials match no user reaches the 401 branch only if `DB.getUserByEmailAndPassword` returns no user. The login test (src/routes/authRouter.test.js:30-31) expects 404 `unknown user`, a message the router never writes, which suggests the store throws for unknown credentials before that branch. The store's errors are not modelled, so `Auth.Login`'s 401 branch, `Auth.LoginAsWritten` and `Auth.UnknownUserThrows` describe a store that returns no user.

## Findings

| source | as written | input that shows it | evidently intended | confidence | as-written member | corrected member |
|---|---|---|---|---|---|---|
| src/routes/authRouter.js:103 | `{ logger }` is destructured from a module that exports the logger instance itself, so the binding is `undefined` and `logger.warn` throws a TypeError | register with an email that is already in the store (`Auth.RegisterAsWrittenDiffers`) | log a warning and answer 409 `User already exists.` | high (not executed) | Auth.RegisterAsWritten | Auth.Register |
| src/routes/authRouter.js:138 | the same undefined binding is used on the failed-login path | login with a well-formed body whose credentials the store answers with no user rather than an error (`Auth.UnknownUserThrows`, `Auth.LoginAsWrittenDiffers`) | log a warning and answer 401 `Invalid email or password.` | medium (not executed; the line is reached only if the store returns no user instead of throwing) | Auth.LoginAsWritten | Auth.Login |
| src/service.js:23-25 | the request tracker is mounted before the session middleware, so it never sees `req.user` | any request carrying a valid bearer session (`Service.SignedInUserMissed`) | the signed-in user's id joins the active-user set | high (not executed) | Service.AdmitAsWritten | Service.Admit |
| src/metrics.js:170-173 | the counters are reset after the awaited send, discarding everything recorded while the send was pending | one successful auth attempt recorded during the send (`Metrics.RecordDuringSendIsLost`) | each recorded event is counted in exactly one reported window | medium (not executed) | Metrics.ReportMetricsAsWritten | Metrics.ReportMetrics |

=== FILE: auth.dfy ===
/** The decision logic of the auth router: bearer-token extraction, the
    role check attached to the session user, the authentication gate, and
    the validation and permission branches of register, login, logout and
    update. The user store, password hashing and token signing are
    parameters: their answers are inputs to the model. */
module Auth {
  import opened Wrappers
  import Text
  import opened Json
  import Logger

  // ---------------------------------------------------------------- tokens

  /** `readAuthToken`: the second space-separated field of a truthy
      authorization header (`undefined` when there is no space), and
      `null` when the header is missing or empty. */
  function ReadAuthToken(header: Option<string>): (r: JsValue)
    ensures (header.None? || header == Some("")) <==> r == Null
    ensures r.Str? ==> ' ' !in r.s
    ensures header.Some? && header.value != "" && ' ' !in header.value ==> r == Undefined
  {
    if header.Some? && header.value != "" then
      var parts := Text.Split(header.value, ' ');
      if |parts| >= 2 then Str(parts[1]) else Undefined
    else Null
  }

  /** Independent reading of the same rule: the token is the text between
      the first space and the next space (or the end of the header). */
  lemma TokenBetweenSpaces(h: string, i: nat)
    requires i < |h| && h[i] == ' ' && ' ' !in h[..i]
    ensures var rest := h[i + 1..];
      ReadAuthToken(Some(h)) ==
        Str(if ' ' in rest then rest[..Text.IndexOf(rest, ' ')] else rest)
  {
    Text.IndexOfIsFirst(h, ' ', i);
    var rest := h[i + 1..];
    assert Text.Split(h, ' ') == [h[..i]] + Text.Split(rest, ' ');
    assert Text.Split(rest, ' ')[0] == if ' ' in rest then rest[..Text.IndexOf(rest, ' ')] else rest;
  }

  /** `Bearer <t>` yields `t` for a token without spaces. */
  lemma BearerRoundTrip(t: string)
    requires ' ' !in t
    ensures ReadAuthToken(Some("Bearer " + t)) == Str(t)
  {
    var h := "Bearer " + t;
    assert h[6] == ' ' && h[7..] == t && ' ' !in h[..6];
    TokenBetweenSpaces(h, 6);
  }

  // ---------------------------------------------------------------- roles

  const Admin: string := "admin"
  const Diner: string := "diner"

  datatype RoleEntry = RoleEntry(role: string, objectId: Option<int>)

  /** A user as the store and the session token carry it. */
  datatype User = User(id: int, name: JsValue, email: JsValue, roles: seq<RoleEntry>)

  /** `roles.find(r => r.role === role)`: the first entry with that role. */
  function FindRole(roles: seq<RoleEntry>, role: string): (r: Option<RoleEntry>)
    ensures r.Some? ==> r.value in roles && r.value.role == role
    decreases |roles|
  {
    if roles == [] then None
    else if roles[0].role == role then Some(roles[0])
    else FindRole(roles[1..], role)
  }

  /** `user.isRole(role)`: the user holds the role in some entry. */
  function IsRole(user: User, role: string): (b: bool)
    ensures b <==> exists i :: 0 <= i < |user.roles| && user.roles[i].role == role
  {
    IsRoleIff(user.roles, role);
    FindRole(user.roles, role).Some?
  }

  /** The role check holds exactly when some entry carries the role. */
  lemma {:induction false} IsRoleIff(roles: seq<RoleEntry>, role: string)
    ensures FindRole(roles, role).Some? <==> exists i :: 0 <= i < |roles| && roles[i].role == role
    decreases |roles|
  {
    if roles != [] && roles[0].role != role {
      IsRoleIff(roles[1..], role);
      if exists i :: 0 <= i < |roles| && roles[i].role == role {
        var i :| 0 <= i < |roles| && roles[i].role == role;
        assert roles[1..][i - 1].role == role;
      }
      if exists i :: 0 <= i < |roles[1..]| && roles[1..][i].role == role {
        var i :| 0 <= i < |roles[1..]| && roles[1..][i].role == role;
        assert roles[i + 1].role == role;
      }
    }
  }

  // ---------------------------------------------------------------- session

  /** `setAuthUser`: a truthy token that the session store lists and whose
      signature verifies gives the session user; otherwise there is none.
      `loggedIn` is the store's answer; `verify` gives `None` when the
      token does not verify (the thrown error is caught). */
  function SetAuthUser(token: JsValue, loggedIn: string -> bool, verify: string -> Option<User>): (r: Option<User>)
    ensures r.Some? <==> token.Str? && token.s != "" && loggedIn(token.s) && verify(token.s).Some?
    ensures r.Some? ==> r == verify(token.s)
  {
    if Truthy(token) && token.Str? && loggedIn(token.s) then verify(token.s) else None
  }

  datatype Gate = Unauthorized(status: int, message: string) | Next

  /** `authenticateToken`: 401 without a session user, otherwise on. */
  function AuthenticateToken(user: Option<User>): (g: Gate)
    ensures g.Next? <==> user.Some?
    ensures g.Unauthorized? ==> g.status == 401 && g.message == "unauthorized"
  {
    if user.None? then Unauthorized(401, "unauthorized") else Next
  }

  /** End to end, a `Bearer` header with a space-free token passes the
      gate exactly when the session store lists the token and its
      signature verifies. */
  lemma BearerGate(t: string, loggedIn: string -> bool, verify: string -> Option<User>)
    requires t != "" && ' ' !in t
    ensures AuthenticateToken(SetAuthUser(ReadAuthToken(Some("Bearer " + t)), loggedIn, verify)).Next? <==>
      loggedIn(t) && verify(t).Some?
  {
    BearerRoundTrip(t);
  }

  /** A request without the header, with an empty one, or with one that
      has no space is turned away with 401 whatever the store says. */
  lemma NoTokenRejected(header: Option<string>, loggedIn: string -> bool, verify: string -> Option<User>)
    requires header.None? || ' ' !in header.value
    ensures AuthenticateToken(SetAuthUser(ReadAuthToken(header), loggedIn, verify)) == Unauthorized(401, "unauthorized")
  {
  }

  // ---------------------------------------------------------------- messages

  /** How a template literal renders a value. */
  function TemplateText(v: JsValue): string
    decreases v
  {
    match v
    case Undefined => "undefined"
    case Null => "null"
    case Bool(b) => if b then "true" else "false"
    case Num(n) => Text.IntToString(n)
    case Str(s) => s
    case Arr(items) => Text.Join(ElementTexts(v, items), ",")
    case Obj(_) => "[object Object]"
  }

  /** Array elements as `Array.prototype.join` renders them: `null` and
      `undefined` become empty. */
  function ElementTexts(parent: JsValue, items: seq<JsValue>): (r: seq<string>)
    requires forall i :: 0 <= i < |items| ==> items[i] < parent
    ensures |r| == |items|
    decreases parent, |items|
  {
    if items == [] then []
    else
      var t := if items[0].Null? || items[0].Undefined? then "" else TemplateText(items[0]);
      [t] + ElementTexts(parent, items[1..])
  }

  // ---------------------------------------------------------------- handlers

  /** What a handler ends in: a message reply, a signed-in user, the
      permission to run the update, a completed logout, or a thrown error. */
  datatype Outcome =
    | Replied(status: int, message: string)
    | SignedIn(status: int, user: User, token: string)
    | UpdateAllowed(target: Option<int>)
    | LoggedOut(status: int, message: string, revoked: Option<string>)
    | Raised(error: string)

  /** An outcome together with the log calls made on the way. */
  datatype Handled = Handled(outcome: Outcome, logs: seq<Logger.LogCall>)

  /** The record handed to `DB.addUser`. */
  datatype NewUser = NewUser(name: JsValue, email: JsValue, passwordHash: string, roles: seq<RoleEntry>)

  /** The warning logged for a duplicate registration; the single object
      argument lands in the type position, so the body is the default. */
  function DuplicateWarning(email: JsValue, httpMethod: string, url: string, existing: User): (c: Logger.LogCall)
    ensures c.level == "warn" && c.body == Obj([]) && c.logType.Obj?
    ensures Get(c.logType.props, "message") == Str("Attempt to register an existing user: " + TemplateText(email))
    ensures Get(c.logType.props, "method") == Str(httpMethod) && Get(c.logType.props, "url") == Str(url)
    ensures Get(c.logType.props, "user") == Num(existing.id)
  {
    var props := [
      ("message", Str("Attempt to register an existing user: " + TemplateText(email))),
      ("method", Str(httpMethod)), ("url", Str(url)), ("user", Num(existing.id))];
    GetFirst(props, "method", 1);
    GetFirst(props, "url", 2);
    GetFirst(props, "user", 3);
    Logger.Log(Logger.Warn, Obj(props), Undefined)
  }

  /** The warning logged for a failed login, shaped like the duplicate
      registration warning but without a user id. */
  function FailedLoginWarning(email: JsValue, httpMethod: string, url: string): (c: Logger.LogCall)
    ensures c.level == "warn" && c.body == Obj([]) && c.logType.Obj?
    ensures Get(c.logType.props, "message") == Str("Failed login attempt for: " + TemplateText(email))
    ensures Get(c.logType.props, "method") == Str(httpMethod) && Get(c.logType.props, "url") == Str(url)
    ensures Get(c.logType.props, "user") == Undefined
  {
    var props := [
      ("message", Str("Failed login attempt for: " + TemplateText(email))),
      ("method", Str(httpMethod)), ("url", Str(url))];
    GetFirst(props, "method", 1);
    GetFirst(props, "url", 2);
    GetMissing(props, "user");
    Logger.Log(Logger.Warn, Obj(props), Undefined)
  }

  /** Register: 400 unless name, email and password are all truthy; 409
      with a warning when the email is taken; otherwise the new user is
      stored with the hashed password and the single role `diner`, signed
      in, and returned with 201. */
  function Register(
    body: seq<(string, JsValue)>, httpMethod: string, url: string,
    userByEmail: JsValue -> Option<User>, hash: JsValue -> string,
    addUser: NewUser -> User, sign: User -> string): (h: Handled)
    ensures h.outcome.Replied? && h.outcome.status == 400 <==>
      !Truthy(Get(body, "name")) || !Truthy(Get(body, "email")) || !Truthy(Get(body, "password"))
    ensures h.outcome.Replied? && h.outcome.status == 409 <==>
      Truthy(Get(body, "name")) && Truthy(Get(body, "email")) && Truthy(Get(body, "password")) &&
      userByEmail(Get(body, "email")).Some?
    ensures (Truthy(Get(body, "name")) && Truthy(Get(body, "email")) && Truthy(Get(body, "password")) &&
      userByEmail(Get(body, "email")).None?) ==> h.outcome.SignedIn?
    ensures h.outcome.Replied? && h.outcome.status == 400 ==>
      h.outcome.message == "name, email, and password are required"
    ensures h.outcome.Replied? && h.outcome.status == 409 ==> h.outcome.message == "User already exists."
    ensures h.outcome.Replied? || h.outcome.SignedIn?
    ensures h.outcome.SignedIn? ==>
      var stored := NewUser(Get(body, "name"), Get(body, "email"), hash(Get(body, "password")), [RoleEntry(Diner, None)]);
      h.outcome == SignedIn(201, addUser(stored), sign(addUser(stored)))
    ensures |h.logs| == (if h.outcome.Replied? && h.outcome.status == 409 then 1 else 0)
  {
    var name, email, password := Get(body, "name"), Get(body, "email"), Get(body, "password");
    if !Truthy(name) || !Truthy(email) || !Truthy(password) then
      Handled(Replied(400, "name, email, and password are required"), [])
    else
      match userByEmail(email)
      case Some(existing) =>
        Handled(Replied(409, "User already exists."), [DuplicateWarning(email, httpMethod, url, existing)])
      case None =>
        var user := addUser(NewUser(name, email, hash(password), [RoleEntry(Diner, None)]));
        Handled(SignedIn(201, user, sign(user)), [])
  }

  /** Login: 400 unless email and password are truthy; 401 with a warning
      when the credentials match no user; otherwise the user is signed in
      and returned with 200. */
  function Login(
    body: seq<(string, JsValue)>, httpMethod: string, url: string,
    userByCredentials: (JsValue, JsValue) -> Option<User>, sign: User -> string): (h: Handled)
    ensures h.outcome.Replied? && h.outcome.status == 400 <==>
      !Truthy(Get(body, "email")) || !Truthy(Get(body, "password"))
    ensures h.outcome.Replied? && h.outcome.status == 401 <==>
      Truthy(Get(body, "email")) && Truthy(Get(body, "password")) &&
      userByCredentials(Get(body, "email"), Get(body, "password")).None?
    ensures (Truthy(Get(body, "email")) && Truthy(Get(body, "password")) &&
      userByCredentials(Get(body, "email"), Get(body, "password")).Some?) ==> h.outcome.SignedIn?
    ensures h.outcome.Replied? && h.outcome.status == 400 ==> h.outcome.message == "email and password are required"
    ensures h.outcome.Replied? && h.outcome.status == 401 ==> h.outcome.message == "Invalid email or password."
    ensures h.outcome.Replied? || h.outcome.SignedIn?
    ensures h.outcome.SignedIn? ==>
      var u := userByCredentials(Get(body, "email"), Get(body, "password"));
      u.Some? && h.outcome == SignedIn(200, u.value, sign(u.value))
    ensures |h.logs| == (if h.outcome.Replied? && h.outcome.status == 401 then 1 else 0)
  {
    var email, password := Get(body, "email"), Get(body, "password");
    if !Truthy(email) || !Truthy(password) then
      Handled(Replied(400, "email and password are required"), [])
    else
      match userByCredentials(email, password)
      case None =>
        Handled(Replied(401, "Invalid email or password."), [FailedLoginWarning(email, httpMethod, url)])
      case Some(user) =>
        Handled(SignedIn(200, user, sign(user)), [])
  }

  // ---------------------------------------------------------------- logger import

  /** The names the logger module's export answers to: it exports the
      logger instance itself, whose own fields and class methods are these
      (plus the ordinary object methods, none of them named `logger`). */
  const LoggerMembers: set<string> := {
    "component", "userId", "url", "apiKey", "constructor", "sendLogToLoki",
    "info", "error", "warn", "logHttpRequest", "logDbQuery", "logException", "_truncate"}

  /** Destructuring `{ logger }` from that export binds a defined value
      only if the export has a `logger` member. */
  const LoggerBound: bool := "logger" in LoggerMembers

  /** The error thrown by `logger.warn(...)` when the binding is undefined. */
  const WarnOnUndefined: string := "Cannot read properties of undefined (reading 'warn')"

  /** Register as the router is written: the duplicate-email branch calls
      `warn` on the destructured binding. */
  function RegisterAsWritten(
    body: seq<(string, JsValue)>, httpMethod: string, url: string,
    userByEmail: JsValue -> Option<User>, hash: JsValue -> string,
    addUser: NewUser -> User, sign: User -> string): (h: Handled)
    ensures h.outcome.Raised? <==>
      Truthy(Get(body, "name")) && Truthy(Get(body, "email")) && Truthy(Get(body, "password")) &&
      userByEmail(Get(body, "email")).Some?
    ensures h.outcome.Raised? ==> h.outcome.error == WarnOnUndefined
    ensures h.logs == []
  {
    var name, email, password := Get(body, "name"), Get(body, "email"), Get(body, "password");
    if !Truthy(name) || !Truthy(email) || !Truthy(password) then
      Handled(Replied(400, "name, email, and password are required"), [])
    else
      match userByEmail(email)
      case Some(existing) =>
        if LoggerBound then
          Handled(Replied(409, "User already exists."), [DuplicateWarning(email, httpMethod, url, existing)])
        else Handled(Raised(WarnOnUndefined), [])
      case None =>
        var user := addUser(NewUser(name, email, hash(password), [RoleEntry(Diner, None)]));
        Handled(SignedIn(201, user, sign(user)), [])
  }

  /** Login as the router is written: the failed-credentials branch calls
      `warn` on the destructured binding. */
  function LoginAsWritten(
    body: seq<(string, JsValue)>, httpMethod: string, url: string,
    userByCredentials: (JsValue, JsValue) -> Option<User>, sign: User -> string): (h: Handled)
    ensures h.outcome.Raised? <==>
      Truthy(Get(body, "email")) && Truthy(Get(body, "password")) &&
      userByCredentials(Get(body, "email"), Get(body, "password")).None?
    ensures h.outcome.Raised? ==> h.outcome.error == WarnOnUndefined
    ensures h.logs == []
  {
    var email, password := Get(body, "email"), Get(body, "password");
    if !Truthy(email) || !Truthy(password) then
      Handled(Replied(400, "email and password are required"), [])
    else
      match userByCredentials(email, password)
      case None =>
        if LoggerBound then
          Handled(Replied(401, "Invalid email or password."), [FailedLoginWarning(email, httpMethod, url)])
        else Handled(Raised(WarnOnUndefined), [])
      case Some(user) =>
        Handled(SignedIn(200, user, sign(user)), [])
  }

  /** As written, a duplicate registration throws instead of answering
      409; every other registration is answered as intended. */
  lemma RegisterAsWrittenDiffers(
    body: seq<(string, JsValue)>, httpMethod: string, url: string,
    userByEmail: JsValue -> Option<User>, hash: JsValue -> string,
    addUser: NewUser -> User, sign: User -> string)
    ensures var intended := Register(body, httpMethod, url, userByEmail, hash, addUser, sign);
      var written := RegisterAsWritten(body, httpMethod, url, userByEmail, hash, addUser, sign);
      (intended.outcome == Replied(409, "User already exists.") ==> written == Handled(Raised(WarnOnUndefined), [])) &&
      (intended.outcome != Replied(409, "User already exists.") ==> written == intended)
  {
    assert !LoggerBound;
  }

  /** As written, a failed login throws instead of answering 401; every
      other login is answered as intended. */
  lemma LoginAsWrittenDiffers(
    body: seq<(string, JsValue)>, httpMethod: string, url: string,
    userByCredentials: (JsValue, JsValue) -> Option<User>, sign: User -> string)
    ensures var intended := Login(body, httpMethod, url, userByCredentials, sign);
      var written := LoginAsWritten(body, httpMethod, url, userByCredentials, sign);
      (intended.outcome == Replied(401, "Invalid email or password.") ==> written == Handled(Raised(WarnOnUndefined), [])) &&
      (intended.outcome != Replied(401, "Invalid email or password.") ==> written == intended)
  {
    assert !LoggerBound;
  }

  /** A concrete failed login: unknown credentials reach the `warn` call
      and throw. */
  lemma UnknownUserThrows(sign: User -> string)
    ensures LoginAsWritten([("email", Str("a@jwt.com")), ("password", Str("bad"))], "PUT", "/api/auth",
      (e, p) => None, sign).outcome == Raised(WarnOnUndefined)
  {
    var body := [("email", Str("a@jwt.com")), ("password", Str("bad"))];
    GetFirst(body, "email", 0);
    GetFirst(body, "password", 1);
    assert !LoggerBound;
  }

  /** Logout behind the gate: the session token, when truthy, is revoked. */
  function Logout(header: Option<string>, user: Option<User>): (h: Handled)
    ensures h.logs == []
    ensures h.outcome.Replied? <==> user.None?
    ensures h.outcome.Replied? ==> h.outcome.status == 401 && h.outcome.message == "unauthorized"
    ensures h.outcome.LoggedOut? ==> h.outcome.status == 200 && h.outcome.message == "logout successful"
    ensures h.outcome.LoggedOut? ==>
      (h.outcome.revoked.Some? <==> Truthy(ReadAuthToken(header))) &&
      (h.outcome.revoked.Some? ==> ReadAuthToken(header) == Str(h.outcome.revoked.value))
    ensures h.outcome.Replied? || h.outcome.LoggedOut?
  {
    match AuthenticateToken(user)
    case Unauthorized(status, message) => Handled(Replied(status, message), [])
    case Next =>
      var token := ReadAuthToken(header);
      Handled(LoggedOut(200, "logout successful", if Truthy(token) && token.Str? then Some(token.s) else None), [])
  }

  /** Logging out with a `Bearer` header revokes exactly the token that
      the header carries. */
  lemma LogoutRevokesBearer(t: string, u: User)
    requires t != "" && ' ' !in t
    ensures Logout(Some("Bearer " + t), Some(u)).outcome == LoggedOut(200, "logout successful", Some(t))
  {
    BearerRoundTrip(t);
  }

  /** `Number(param)` for a route parameter: a run of decimal digits gives
      its value; anything else is treated as `NaN` (`None`). */
  function NumberOf(param: string): (r: Option<int>)
    ensures r.Some? <==> |param| >= 1 && Text.IsDigits(param)
    ensures r.Some? ==> r.value >= 0
  {
    if |param| >= 1 && Text.IsDigits(param) then Some(Text.ParseNat(param)) else None
  }

  /** Update behind the gate: 403 unless the session user's id equals the
      numeric route parameter or the user is an admin. `NaN` equals no id. */
  function Update(user: Option<User>, userIdParam: string): (h: Handled)
    ensures h.logs == []
    ensures h.outcome.UpdateAllowed? <==>
      user.Some? &&
      (NumberOf(userIdParam) == Some(user.value.id) ||
       exists i :: 0 <= i < |user.value.roles| && user.value.roles[i].role == Admin)
    ensures h.outcome.UpdateAllowed? ==> h.outcome.target == NumberOf(userIdParam)
    ensures !h.outcome.UpdateAllowed? ==>
      h.outcome.Replied? && h.outcome.status == (if user.None? then 401 else 403)
    ensures h.outcome.Replied? ==> h.outcome.message == "unauthorized"
  {
    match AuthenticateToken(user)
    case Unauthorized(status, message) => Handled(Replied(status, message), [])
    case Next =>
      var target := NumberOf(userIdParam);
      IsRoleIff(user.value.roles, Admin);
      if target != Some(user.value.id) && !IsRole(user.value, Admin) then
        Handled(Replied(403, "unauthorized"), [])
      else
        Handled(UpdateAllowed(target), [])
  }

  /** A session user always passes their own numeric id. */
  lemma OwnIdAllowed(u: User)
    requires u.id >= 0
    ensures Update(Some(u), Text.NatToString(u.id)).outcome == UpdateAllowed(Some(u.id))
  {
    Text.ParseNatToString(u.id);
  }
}

=== FILE: collections.dfy ===
/** Small helpers over integers and sequences shared by the other modules. */
module Collections {

  /** `n` clamped at zero, as `substring` and the retry budget treat a
      negative count. */
  function Max0(n: int): nat {
    if n < 0 then 0 else n
  }

  /** Sum of the elements, added left to right. */
  function Sum(xs: seq<int>): int
    decreases |xs|
  {
    if |xs| == 0 then 0 else Sum(xs[..|xs| - 1]) + xs[|xs| - 1]
  }

  /** The keys of an ordered list of entries, in order. */
  function Keys<V>(entries: seq<(string, V)>): (ks: seq<string>)
    ensures |ks| == |entries|
  {
    seq(|entries|, i requires 0 <= i < |entries| => entries[i].0)
  }
}

=== FILE: delivery.dfy ===
/** Delivery of an encoded metrics batch (`sendToGrafana` in
    src/metrics.js): up to `retries` POST attempts, stopping at the first
    successful response, with a linear wait of 1000 ms times the attempt
    number after every failed attempt but the last. The endpoint is
    abstract: `reply(k)` says whether attempt `k` got an ok response (a
    thrown network error and a non-ok status are the same failure). Waits
    are recorded as durations; nothing is thrown to the caller. */
module Delivery {
  import opened Collections

  const DefaultRetries: int := 3
  const BaseDelayMs: nat := 1000

  /** What one call did: how many attempts it made, the waits it slept
      between them (in milliseconds, in order), and whether a response
      was ok. */
  datatype Delivery = Delivery(attempts: nat, waits: seq<nat>, delivered: bool)

  /** The first `n` waits of the linear schedule: 1000, 2000, ... */
  function Backoffs(n: nat): (r: seq<nat>)
    ensures |r| == n
  {
    seq(n, i requires 0 <= i < n => BaseDelayMs * (i + 1))
  }

  /** The behaviour the retry loop promises, given the endpoint's answers. */
  predicate Conforms(reply: nat -> bool, retries: int, d: Delivery) {
    && d.attempts <= Max0(retries)
    && (forall k :: 1 <= k < d.attempts ==> !reply(k))
    && (d.delivered ==> 1 <= d.attempts && reply(d.attempts))
    && (!d.delivered ==> d.attempts == Max0(retries) && (d.attempts == 0 || !reply(d.attempts)))
    && d.waits == Backoffs(if d.attempts == 0 then 0 else d.attempts - 1)
  }

  /** The retry loop of `sendToGrafana`. */
  method SendToGrafana(reply: nat -> bool, retries: int) returns (d: Delivery)
    ensures Conforms(reply, retries, d)
  {
    var attempt: nat := 1;
    var waits: seq<nat> := [];
    while attempt <= retries
      invariant 1 <= attempt <= Max0(retries) + 1
      invariant forall k :: 1 <= k < attempt ==> !reply(k)
      invariant waits == Backoffs(if attempt <= retries || attempt == 1 then attempt - 1 else attempt - 2)
    {
      if reply(attempt) {
        return Delivery(attempt, waits, true);
      }
      if attempt != retries {
        waits := waits + [BaseDelayMs * attempt];
      }
      attempt := attempt + 1;
    }
    d := Delivery(attempt - 1, waits, false);
  }

  /** The contract leaves no freedom: the endpoint's answers determine the
      whole outcome, and delivery happens exactly when some attempt within
      the budget is answered ok. */
  lemma ConformsDeterminesOutcome(reply: nat -> bool, retries: int, d1: Delivery, d2: Delivery)
    requires Conforms(reply, retries, d1) && Conforms(reply, retries, d2)
    ensures d1 == d2
    ensures d1.delivered <==> exists k :: 1 <= k <= retries && reply(k)
  {
  }

  /** The schedule grows linearly, not exponentially: n waits add up to
      1000 * n(n+1)/2 ms. */
  lemma {:induction false} BackoffTotal(n: nat)
    ensures 2 * Sum(Backoffs(n)) == BaseDelayMs * n * (n + 1)
  {
    if n > 0 {
      assert Backoffs(n)[..n - 1] == Backoffs(n - 1);
      BackoffTotal(n - 1);
    }
  }

  /** An endpoint that never answers ok gets the default three attempts,
      with waits of 1 s after the first and 2 s after the second. */
  lemma AlwaysFailingEndpoint(reply: nat -> bool, d: Delivery)
    requires forall k :: !reply(k)
    requires Conforms(reply, DefaultRetries, d)
    ensures !d.delivered && d.attempts == 3
    ensures d.waits == [1000, 2000]
  {
  }
}

=== FILE: http_logger.dfy ===
/** The request-capture middleware: it remembers the request line, the
    authorization flag and a shallow copy of the request body, wraps the
    response's `send` and `json` so the last body handed to either is kept,
    and on `finish` emits one `http_request` log record. */
module HttpLogger {
  import opened Wrappers
  import Text
  import opened Json
  import Logger

  /** The parts of an incoming request the middleware reads. Node hands a
      header over as a string, or as `undefined` when it is absent. */
  datatype Request = Request(httpMethod: string, originalUrl: string, authorization: Option<string>, body: JsValue)

  /** `Boolean(headers.authorization)`: a request without the header is
      unauthenticated, and so is one whose header is empty; any other
      header value, however malformed, sets the flag. */
  function HasAuth(authorization: Option<string>): (b: bool)
    ensures authorization.None? ==> !b
    ensures authorization.Some? ==> (b <==> authorization.value != "")
  {
    Truthy(FromOption(authorization))
  }

  function IndexKeyed(items: seq<JsValue>): (props: seq<(string, JsValue)>)
    ensures |props| == |items|
    ensures forall i :: 0 <= i < |props| ==> props[i] == (Text.NatToString(i), items[i])
  {
    seq(|items|, i requires 0 <= i < |items| => (Text.NatToString(i), items[i]))
  }

  /** The request body as captured: a truthy object is copied by spread
      (an array's elements become properties named by their index); any
      other body becomes the empty object. */
  function ShallowCopy(body: JsValue): (r: JsValue)
    ensures r.Obj?
    ensures body.Obj? ==> r == body
    ensures body.Arr? ==> r.props == IndexKeyed(body.items)
    ensures body.Null? ==> r == Obj([])
    ensures !IsObjectType(body) ==> r == Obj([])
  {
    match body
    case Obj(props) => body
    case Arr(items) => Obj(IndexKeyed(items))
    case _ => Obj([])
  }

  lemma DistinctIndexKeys(i: nat, j: nat)
    requires i != j
    ensures Text.NatToString(i) != Text.NatToString(j)
  {
    Text.ParseNatToString(i);
    Text.ParseNatToString(j);
  }

  /** Property `i` of a copied array reads back element `i`. */
  lemma CopiedArrayIndexes(items: seq<JsValue>, i: nat)
    requires i < |items|
    ensures Get(ShallowCopy(Arr(items)).props, Text.NatToString(i)) == items[i]
  {
    var props := ShallowCopy(Arr(items)).props;
    forall j | 0 <= j < i
      ensures props[j].0 != Text.NatToString(i)
    {
      DistinctIndexKeys(j, i);
    }
    GetFirst(props, Text.NatToString(i), i);
  }

  /** A call that reached the original `send` or `json`. */
  datatype Forward = ToSend(body: JsValue) | ToJson(body: JsValue)

  /** What happens to the response after the middleware ran: calls of the
      wrapped `send` and `json` (including any the framework makes
      internally), and `finish` events with the final status code. */
  datatype Event = CallSend(body: JsValue) | CallJson(body: JsValue) | Finish(statusCode: int)

  /** The middleware's closure state plus what it has passed on. */
  datatype Capture = Capture(
    httpMethod: string, path: string, hasAuth: bool, requestBody: JsValue,
    responseBody: JsValue, forwarded: seq<Forward>, logs: seq<Logger.LogCall>)

  /** The state right after the middleware ran and called `next`. */
  function Start(req: Request): (c: Capture)
    ensures c.httpMethod == req.httpMethod && c.path == req.originalUrl
    ensures c.hasAuth <==> req.authorization.Some? && req.authorization.value != ""
    ensures c.requestBody == ShallowCopy(req.body) && c.requestBody.Obj?
    ensures c.responseBody == Null && c.forwarded == [] && c.logs == []
  {
    Capture(req.httpMethod, req.originalUrl, HasAuth(req.authorization), ShallowCopy(req.body), Null, [], [])
  }

  /** The record the `finish` handler hands to `logHttpRequest`. */
  function RecordOf(c: Capture, statusCode: int): Logger.HttpRecord {
    Logger.HttpRecord(c.httpMethod, c.path, statusCode, c.hasAuth, c.requestBody, c.responseBody)
  }

  /** One event: a `send` or `json` call keeps its body and reaches the
      original; a `finish` appends exactly one record built from the state
      so far. The captured request part never changes. */
  function Step(c: Capture, e: Event): (r: Capture)
    ensures r.httpMethod == c.httpMethod && r.path == c.path
    ensures r.hasAuth == c.hasAuth && r.requestBody == c.requestBody
    ensures |c.logs| <= |r.logs| && (|r.logs| == |c.logs| + 1 <==> e.Finish?)
    ensures r.logs[..|c.logs|] == c.logs
    ensures e.Finish? ==> r.logs[|c.logs|] == Logger.LogHttpRequest(RecordOf(c, e.statusCode))
    ensures e.Finish? ==> r.responseBody == c.responseBody && r.forwarded == c.forwarded
    ensures !e.Finish? ==> r.responseBody == e.body && r.logs == c.logs
    ensures e.CallSend? ==> r.forwarded == c.forwarded + [ToSend(e.body)]
    ensures e.CallJson? ==> r.forwarded == c.forwarded + [ToJson(e.body)]
  {
    match e
    case CallSend(v) => c.(responseBody := v, forwarded := c.forwarded + [ToSend(v)])
    case CallJson(v) => c.(responseBody := v, forwarded := c.forwarded + [ToJson(v)])
    case Finish(s) => c.(logs := c.logs + [Logger.LogHttpRequest(RecordOf(c, s))])
  }

  function Run(c: Capture, es: seq<Event>): Capture
    decreases |es|
  {
    if es == [] then c else Step(Run(c, es[..|es| - 1]), es[|es| - 1])
  }

  // ------------------------------------------------------------ reference

  /** The body of the last `send` or `json` call in `es`, or `init`. */
  function LastBody(es: seq<Event>, init: JsValue): JsValue
    decreases |es|
  {
    if es == [] then init
    else if es[|es| - 1].Finish? then LastBody(es[..|es| - 1], init)
    else es[|es| - 1].body
  }

  /** The `send` and `json` calls in `es`, in order. */
  function Forwards(es: seq<Event>): seq<Forward>
    decreases |es|
  {
    if es == [] then []
    else
      var last := es[|es| - 1];
      Forwards(es[..|es| - 1]) +
        (match last
         case CallSend(v) => [ToSend(v)]
         case CallJson(v) => [ToJson(v)]
         case Finish(_) => [])
  }

  /** The number of `finish` events in `es`. */
  function Finishes(es: seq<Event>): nat
    decreases |es|
  {
    if es == [] then 0 else Finishes(es[..|es| - 1]) + (if es[|es| - 1].Finish? then 1 else 0)
  }

  // ------------------------------------------------------------ properties

  /** The captured request and flag never change; the kept response body
      is the last one passed to `send` or `json`; every such call is
      forwarded, in order; one log record is added per `finish`, after the
      earlier ones. */
  lemma {:induction false} RunFacts(c: Capture, es: seq<Event>)
    ensures var r := Run(c, es);
      r.httpMethod == c.httpMethod && r.path == c.path && r.hasAuth == c.hasAuth &&
      r.requestBody == c.requestBody
    ensures Run(c, es).responseBody == LastBody(es, c.responseBody)
    ensures Run(c, es).forwarded == c.forwarded + Forwards(es)
    ensures |Run(c, es).logs| == |c.logs| + Finishes(es)
    ensures Run(c, es).logs[..|c.logs|] == c.logs
    decreases |es|
  {
    if es != [] {
      var init := es[..|es| - 1];
      RunFacts(c, init);
      var p := Run(c, init);
      assert p.logs[..|c.logs|] == c.logs;
      match es[|es| - 1]
      case CallSend(v) =>
        assert Run(c, es).forwarded == c.forwarded + Forwards(init) + [ToSend(v)];
      case CallJson(v) =>
        assert Run(c, es).forwarded == c.forwarded + Forwards(init) + [ToJson(v)];
      case Finish(s) =>
        assert Run(c, es).logs == p.logs + [Logger.LogHttpRequest(RecordOf(p, s))];
        assert Run(c, es).logs[..|c.logs|] == p.logs[..|c.logs|];
    }
  }

  /** The record logged at a `finish` carries the request's method, URL,
      authorization flag and copied body, the status of that `finish`, and
      the last body sent before it (`null` when nothing was sent). */
  lemma FinishRecord(req: Request, before: seq<Event>, statusCode: int)
    ensures var r := Run(Start(req), before + [Finish(statusCode)]);
      |r.logs| >= 1 &&
      r.logs[|r.logs| - 1] == Logger.LogHttpRequest(Logger.HttpRecord(
        req.httpMethod, req.originalUrl, statusCode, HasAuth(req.authorization),
        ShallowCopy(req.body), LastBody(before, Null)))
  {
    var es := before + [Finish(statusCode)];
    assert es[..|es| - 1] == before;
    RunFacts(Start(req), before);
  }

  /** `res.json(v)` followed by the framework's own `send` of the
      serialised text leaves the serialised text as the logged body, and
      both calls reach the originals. */
  lemma JsonThenInternalSend(req: Request, v: JsValue, text: string, statusCode: int)
    ensures var r := Run(Start(req), [CallJson(v), CallSend(Str(text)), Finish(statusCode)]);
      r.forwarded == [ToJson(v), ToSend(Str(text))] &&
      |r.logs| == 1 &&
      Get(r.logs[0].body.props, "responseBody") == Str(Logger.Excerpt(Str(text)))
  {
    var es := [CallJson(v), CallSend(Str(text)), Finish(statusCode)];
    var c0 := Start(req);
    var c1 := Step(c0, CallJson(v));
    var c2 := Step(c1, CallSend(Str(text)));
    var c3 := Step(c2, Finish(statusCode));
    assert Run(c0, es[..1]) == c1 by {
      assert es[..1][..0] == [];
    }
    assert Run(c0, es[..2]) == c2 by {
      assert es[..2][..1] == es[..1];
    }
    assert Run(c0, es) == c3;
    assert c2.responseBody == Str(text);
    assert c3.logs == [Logger.LogHttpRequest(RecordOf(c2, statusCode))];
  }
}

=== FILE: json.dfy ===
/** JavaScript values as the telemetry code sees them, with JavaScript's
    truthiness and a definition of `JSON.stringify` for them. Numbers are
    integers here; objects keep their own properties in insertion order. */
module Json {
  import opened Wrappers
  import Text

  datatype JsValue =
    | Undefined
    | Null
    | Bool(b: bool)
    | Num(n: int)
    | Str(s: string)
    | Arr(items: seq<JsValue>)
    | Obj(props: seq<(string, JsValue)>)

  /** JavaScript truthiness: `undefined`, `null`, `false`, `0` and `""` are falsy. */
  predicate Truthy(v: JsValue) {
    match v
    case Undefined => false
    case Null => false
    case Bool(b) => b
    case Num(n) => n != 0
    case Str(s) => s != ""
    case Arr(_) => true
    case Obj(_) => true
  }

  /** `typeof v === "object"` (arrays and `null` included). */
  predicate IsObjectType(v: JsValue) {
    v.Null? || v.Arr? || v.Obj?
  }

  /** An optional string as a JavaScript value: absent is `undefined`. */
  function FromOption(o: Option<string>): (v: JsValue)
    ensures v.Undefined? <==> o.None?
  {
    match o
    case None => Undefined
    case Some(s) => Str(s)
  }

  /** Property read `obj[key]`: the first own property with that key, or
      `undefined` when there is none. */
  function Get(props: seq<(string, JsValue)>, key: string): JsValue {
    if |props| == 0 then Undefined
    else if props[0].0 == key then props[0].1
    else Get(props[1..], key)
  }

  /** A read finds the first property carrying the key. */
  lemma {:induction false} GetFirst(props: seq<(string, JsValue)>, key: string, i: nat)
    requires i < |props| && props[i].0 == key
    requires forall j :: 0 <= j < i ==> props[j].0 != key
    ensures Get(props, key) == props[i].1
    decreases i
  {
    if i > 0 {
      GetFirst(props[1..], key, i - 1);
    }
  }

  /** Properties appended after the ones read do not change a read of a key
      they do not carry. */
  lemma {:induction false} GetIgnoresOtherKeys(props: seq<(string, JsValue)>, extra: seq<(string, JsValue)>, key: string)
    requires forall i :: 0 <= i < |extra| ==> extra[i].0 != key
    ensures Get(props + extra, key) == Get(props, key)
  {
    if |props| > 0 {
      assert (props + extra)[1..] == props[1..] + extra;
      GetIgnoresOtherKeys(props[1..], extra, key);
    } else {
      GetMissing(extra, key);
      assert props + extra == extra;
    }
  }

  /** A key no property carries reads as `undefined`. */
  lemma {:induction false} GetMissing(props: seq<(string, JsValue)>, key: string)
    requires forall i :: 0 <= i < |props| ==> props[i].0 != key
    ensures Get(props, key) == Undefined
    decreases |props|
  {
    if |props| > 0 {
      GetMissing(props[1..], key);
    }
  }

  /** One character inside a JSON string literal: quote, backslash and the
      control characters are escaped, everything else is kept. */
  function EscapeChar(c: char): (r: string)
    ensures |r| >= 1
  {
    if c == '"' then "\\\""
    else if c == '\\' then "\\\\"
    else if c as int == 8 then "\\b"
    else if c as int == 12 then "\\f"
    else if c == '\n' then "\\n"
    else if c == '\r' then "\\r"
    else if c == '\t' then "\\t"
    else if c as int < 0x20 then "\\u00" + [Text.HexDigit(c as int / 16), Text.HexDigit(c as int % 16)]
    else [c]
  }

  function Escape(s: string): string
    decreases |s|
  {
    if |s| == 0 then "" else EscapeChar(s[0]) + Escape(s[1..])
  }

  /** A JSON string literal. */
  function Quote(s: string): (r: string)
    ensures |r| >= 2 && r[0] == '"' && r[|r| - 1] == '"'
  {
    "\"" + Escape(s) + "\""
  }

  /** `JSON.stringify(v)`: `undefined` has no serialisation; every other
      value serialises to a non-empty text that opens the way a JSON value
      opens (a literal, a number, a string, an array or an object). */
  function Stringify(v: JsValue): (r: Option<string>)
    ensures r.None? <==> v.Undefined?
    ensures r.Some? ==> |r.value| > 0 && r.value[0] in "ntf-0123456789\"[{"
  {
    match v
    case Undefined => None
    case Null => Some("null")
    case Bool(b) => Some(if b then "true" else "false")
    case Num(n) => Some(Text.IntToString(n))
    case Str(s) => Some(Quote(s))
    case Arr(items) => Some("[" + Text.Join(Elements(items), ",") + "]")
    case Obj(props) => Some("{" + Text.Join(Members(props), ",") + "}")
  }

  /** Array elements; an `undefined` element is written `null`. */
  function Elements(items: seq<JsValue>): (r: seq<string>)
    ensures |r| == |items|
  {
    if |items| == 0 then []
    else [Stringify(items[0]).GetOr("null")] + Elements(items[1..])
  }

  /** Object members; a property whose value is `undefined` is left out. */
  function Members(props: seq<(string, JsValue)>): (r: seq<string>)
    ensures |r| <= |props|
  {
    if |props| == 0 then []
    else if props[0].1.Undefined? then Members(props[1..])
    else [Member(props[0])] + Members(props[1..])
  }

  function Member(p: (string, JsValue)): string
    requires !p.1.Undefined?
  {
    Quote(p.0) + ":" + Stringify(p.1).value
  }
}

=== FILE: line_protocol.dfy ===
/** The measurement-line builder the metrics reporter renders its window
    through (`MetricBuilder` in src/metrics.js). A line is
    `name,k=v,... f=v,...` with tags, or `name f=v,...` without; the
    builder keeps its lines in insertion order and joins them with a
    separator. No delimiter is escaped. */
module LineProtocol {
  import opened Wrappers
  import Text

  type Pair = (string, string)

  /** One measurement: its name, its tag entries and its field entries, in
      the order the caller's object literals list them. */
  datatype Measurement = Measurement(name: string, tags: seq<Pair>, fields: seq<Pair>)

  /** The lines pushed so far. */
  datatype Builder = Builder(lines: seq<string>)

  const NewBuilder: Builder := Builder([])

  /** `${k}=${v}` for each entry, in order. */
  function Entries(pairs: seq<Pair>): seq<string> {
    seq(|pairs|, i requires 0 <= i < |pairs| => pairs[i].0 + "=" + pairs[i].1)
  }

  function TagText(m: Measurement): string {
    Text.Join(Entries(m.tags), ",")
  }

  function FieldText(m: Measurement): string {
    Text.Join(Entries(m.fields), ",")
  }

  /** The text `addMeasurement` pushes for `m`. The tag part is used when
      its joined text is non-empty (JavaScript truthiness of `tagStr`). */
  function Line(m: Measurement): string {
    if TagText(m) != "" then m.name + "," + TagText(m) + " " + FieldText(m)
    else m.name + " " + FieldText(m)
  }

  /** A line opens with the measurement name, then `,` exactly when there
      is tag text (a space otherwise), and closes with the field text. */
  lemma LineShape(m: Measurement)
    ensures var r := Line(m);
            && |r| > |m.name| && r[..|m.name|] == m.name
            && (r[|m.name|] == ',' <==> TagText(m) != "")
            && |r| >= |FieldText(m)| && r[|r| - |FieldText(m)|..] == FieldText(m)
  {
  }

  /** `addMeasurement`: exactly one line is appended and the earlier ones
      are kept as they were. */
  function AddMeasurement(b: Builder, m: Measurement): (r: Builder)
    ensures |r.lines| == |b.lines| + 1
    ensures r.lines[..|b.lines|] == b.lines
    ensures r.lines[|b.lines|] == Line(m)
  {
    Builder(b.lines + [Line(m)])
  }

  /** Adds the measurements one after another. */
  function AddAll(b: Builder, ms: seq<Measurement>): Builder
    decreases |ms|
  {
    if |ms| == 0 then b else AddAll(AddMeasurement(b, ms[0]), ms[1..])
  }

  /** `toString(separator)`. */
  function ToString(b: Builder, sep: string): string {
    Text.Join(b.lines, sep)
  }

  /** Building a list of measurements yields one line per measurement, in
      the order they were added, after the lines already present. */
  lemma {:induction false} AddAllKeepsOrder(b: Builder, ms: seq<Measurement>)
    ensures |AddAll(b, ms).lines| == |b.lines| + |ms|
    ensures AddAll(b, ms).lines[..|b.lines|] == b.lines
    ensures forall i :: 0 <= i < |ms| ==> AddAll(b, ms).lines[|b.lines| + i] == Line(ms[i])
    decreases |ms|
  {
    if |ms| > 0 {
      var b' := AddMeasurement(b, ms[0]);
      AddAllKeepsOrder(b', ms[1..]);
      var r := AddAll(b', ms[1..]);
      assert r.lines[..|b.lines|] == r.lines[..|b'.lines|][..|b.lines|];
      forall i | 0 <= i < |ms|
        ensures r.lines[|b.lines| + i] == Line(ms[i])
      {
        if i > 0 {
          assert ms[1..][i - 1] == ms[i];
        }
      }
    }
  }

  /** The tag part is empty exactly when there are no tags, so the `tagStr`
      test in `addMeasurement` is a test for "has tags". */
  lemma TagTextEmptyIff(tags: seq<Pair>)
    ensures Text.Join(Entries(tags), ",") == "" <==> |tags| == 0
  {
    if |tags| > 0 {
      var es := Entries(tags);
      assert es[0] == tags[0].0 + "=" + tags[0].1;
      JoinStartsWithFirst(es, ",");
    }
  }

  lemma {:induction false} JoinStartsWithFirst(parts: seq<string>, sep: string)
    requires |parts| >= 1
    ensures |Text.Join(parts, sep)| >= |parts[0]|
    ensures Text.Join(parts, sep)[..|parts[0]|] == parts[0]
  {
    if |parts| > 1 {
      Text.JoinCons(parts[0], parts[1..], sep);
      assert [parts[0]] + parts[1..] == parts;
    }
  }

  /** A character that is in no piece and not in the separator is not in the join. */
  lemma {:induction false} JoinAvoids(parts: seq<string>, sep: string, c: char)
    requires c !in sep
    requires forall i :: 0 <= i < |parts| ==> c !in parts[i]
    ensures c !in Text.Join(parts, sep)
    decreases |parts|
  {
    if |parts| > 1 {
      JoinAvoids(parts[1..], sep, c);
    }
  }

  /** Text free of every delimiter the line format introduces. */
  predicate Plain(s: string) {
    ',' !in s && '=' !in s && ' ' !in s && '\n' !in s
  }

  predicate PlainPairs(pairs: seq<Pair>) {
    forall i :: 0 <= i < |pairs| ==> Plain(pairs[i].0) && Plain(pairs[i].1)
  }

  /** A measurement whose text can be read back: no delimiter inside any
      name, key or value, and at least one field. */
  predicate Clean(m: Measurement) {
    Plain(m.name) && PlainPairs(m.tags) && PlainPairs(m.fields) && |m.fields| >= 1
  }

  /** Reads one `k=v` entry. */
  function ParseEntry(e: string): Option<Pair> {
    var kv := Text.Split(e, '=');
    if |kv| == 2 then Some((kv[0], kv[1])) else None
  }

  function ParseEntries(es: seq<string>): Option<seq<Pair>>
    decreases |es|
  {
    if |es| == 0 then Some([])
    else
      match (ParseEntry(es[0]), ParseEntries(es[1..]))
      case (Some(p), Some(ps)) => Some([p] + ps)
      case _ => None
  }

  /** Reads a measurement line back: the inverse of `Line` on clean
      measurements. */
  function ParseLine(line: string): Option<Measurement> {
    var halves := Text.Split(line, ' ');
    if |halves| != 2 then None
    else
      var head := Text.Split(halves[0], ',');
      match (ParseEntries(head[1..]), ParseEntries(Text.Split(halves[1], ',')))
      case (Some(tags), Some(fields)) => Some(Measurement(head[0], tags, fields))
      case _ => None
  }

  lemma {:induction false} ParseEntriesOfEntries(pairs: seq<Pair>)
    requires PlainPairs(pairs)
    ensures ParseEntries(Entries(pairs)) == Some(pairs)
    decreases |pairs|
  {
    if |pairs| > 0 {
      var es := Entries(pairs);
      var k := pairs[0].0;
      var v := pairs[0].1;
      assert es[0] == Text.Join([k, v], "=");
      Text.SplitJoin([k, v], '=');
      assert es[1..] == Entries(pairs[1..]);
      ParseEntriesOfEntries(pairs[1..]);
      assert [pairs[0]] + pairs[1..] == pairs;
    }
  }

  lemma EntriesAvoid(pairs: seq<Pair>, c: char)
    requires PlainPairs(pairs)
    requires c == ',' || c == ' ' || c == '\n'
    ensures forall i :: 0 <= i < |Entries(pairs)| ==> c !in Entries(pairs)[i]
  {
  }

  /** The part of a line before the space. */
  function Head(m: Measurement): string {
    if TagText(m) != "" then m.name + "," + TagText(m) else m.name
  }

  lemma LineHalves(m: Measurement)
    requires Clean(m)
    ensures Text.Split(Line(m), ' ') == [Head(m), FieldText(m)]
  {
    TagTextEmptyIff(m.tags);
    EntriesAvoid(m.tags, ' ');
    EntriesAvoid(m.fields, ' ');
    JoinAvoids(Entries(m.fields), ",", ' ');
    if TagText(m) != "" {
      JoinAvoids(Entries(m.tags), ",", ' ');
    }
    assert ' ' !in Head(m);
    assert Line(m) == Text.Join([Head(m), FieldText(m)], " ");
    Text.SplitJoin([Head(m), FieldText(m)], ' ');
  }

  lemma HeadParts(m: Measurement)
    requires Clean(m)
    ensures Text.Split(Head(m), ',') == [m.name] + Entries(m.tags)
  {
    TagTextEmptyIff(m.tags);
    var tes := Entries(m.tags);
    if TagText(m) != "" {
      EntriesAvoid(m.tags, ',');
      Text.JoinCons(m.name, tes, ",");
      Text.SplitJoin([m.name] + tes, ',');
    } else {
      assert tes == [];
    }
  }

  lemma FieldParts(m: Measurement)
    requires Clean(m)
    ensures Text.Split(FieldText(m), ',') == Entries(m.fields)
  {
    EntriesAvoid(m.fields, ',');
    Text.SplitJoin(Entries(m.fields), ',');
  }

  /** Round trip: a clean measurement is read back from its line unchanged. */
  lemma ParseLineOfLine(m: Measurement)
    requires Clean(m)
    ensures ParseLine(Line(m)) == Some(m)
  {
    LineHalves(m);
    HeadParts(m);
    FieldParts(m);
    ParseEntriesOfEntries(m.tags);
    ParseEntriesOfEntries(m.fields);
    assert ([m.name] + Entries(m.tags))[1..] == Entries(m.tags);
  }

  /** Because nothing is escaped, a tag value carrying the delimiters
      renders the same line as a different tag list. */
  lemma LineIsNotInjective()
    ensures var forged := Measurement("m", [("source", "a,b=c")], [("total", "1")]);
            var honest := Measurement("m", [("source", "a"), ("b", "c")], [("total", "1")]);
            forged != honest && Line(forged) == Line(honest)
  {
    var forged := Measurement("m", [("source", "a,b=c")], [("total", "1")]);
    var honest := Measurement("m", [("source", "a"), ("b", "c")], [("total", "1")]);
    assert forged.tags != honest.tags;
    var he := Entries(honest.tags);
    var fe := Entries(forged.tags);
    assert he[0] == "source=a" && he[1] == "b=c" && he[1..] == ["b=c"];
    assert |fe| == 1 && fe[0] == "source=a,b=c";
    assert Text.Join(he, ",") == "source=a,b=c";
  }

  /** The text of a line with two tags and one field. */
  lemma TwoTagLine(name: string, k1: string, v1: string, k2: string, v2: string, fk: string, fv: string)
    ensures Line(Measurement(name, [(k1, v1), (k2, v2)], [(fk, fv)]))
         == name + "," + k1 + "=" + v1 + "," + k2 + "=" + v2 + " " + fk + "=" + fv
  {
    var te := Entries([(k1, v1), (k2, v2)]);
    var fe := Entries([(fk, fv)]);
    assert te[1..] == [k2 + "=" + v2];
    assert Text.Join(te, ",") == k1 + "=" + v1 + "," + k2 + "=" + v2;
    assert Text.Join(fe, ",") == fk + "=" + fv;
  }

  /** The joined report splits back into its lines when no line holds the
      separator. */
  lemma ToStringSplitsBack(b: Builder)
    requires |b.lines| >= 1
    requires forall i :: 0 <= i < |b.lines| ==> '\n' !in b.lines[i]
    ensures Text.Split(ToString(b, "\n"), '\n') == b.lines
  {
    Text.SplitJoin(b.lines, '\n');
  }
}

=== FILE: logger.dfy ===
/** The structured logger of src/logger.js: the bounded excerpt
    (`_truncate`), the level wrappers, the typed records for HTTP
    requests, database queries and exceptions, and the Loki push payload.
    The POST itself is not modelled; a record is described by the call it
    makes to `sendLogToLoki` and by the payload that call builds. */
module Logger {
  import opened Wrappers
  import Text
  import opened Json
  import opened Collections

  const DefaultComponent: string := "jwt-pizza-service-dev"
  const DefaultMaxLength: int := 200
  const Placeholder: string := "N/A"
  const Ellipsis: string := "..."

  /** The `component` label: the configured name, or the default when the
      configured value is falsy (absent or empty). */
  function ComponentLabel(configured: Option<string>): (r: string)
    ensures r != ""
    ensures configured.Some? && configured.value != "" ==> r == configured.value
    ensures configured.None? || configured.value == "" ==> r == DefaultComponent
  {
    if configured.Some? && configured.value != "" then configured.value else DefaultComponent
  }

  /** The text `_truncate` measures: a string as it is, anything else as
      its JSON text. */
  function TextOf(data: JsValue): (t: string)
    requires Truthy(data)
    ensures t != ""
    ensures data.Str? ==> t == data.s
    ensures !data.Str? ==> Stringify(data) == Some(t)
  {
    if data.Str? then data.s else Stringify(data).value
  }

  /** `_truncate(data, maxLength)`: the placeholder for falsy data, the text
      when it fits, otherwise its first `maxLength` characters followed by
      an ellipsis (`substring` clamps a negative length to 0). */
  function Truncate(data: JsValue, maxLength: int): (r: string)
    ensures !Truthy(data) ==> r == Placeholder
    ensures Truthy(data) && |TextOf(data)| <= maxLength ==> r == TextOf(data)
    ensures Truthy(data) && |TextOf(data)| > maxLength ==>
      r == TextOf(data)[..Max0(maxLength)] + Ellipsis
    ensures maxLength >= 0 ==> |r| <= maxLength + |Ellipsis|
  {
    if !Truthy(data) then Placeholder
    else
      var t := TextOf(data);
      if |t| > maxLength then t[..Max0(maxLength)] + Ellipsis else t
  }

  /** Truncating an excerpt again changes nothing, as long as the
      placeholder itself fits. */
  lemma TruncateIdempotent(data: JsValue, maxLength: int)
    requires maxLength >= |Placeholder|
    ensures Truncate(Str(Truncate(data, maxLength)), maxLength) == Truncate(data, maxLength)
  {
    var r := Truncate(data, maxLength);
    if Truthy(data) && |TextOf(data)| > maxLength {
      assert (TextOf(data)[..maxLength] + Ellipsis)[..maxLength] == TextOf(data)[..maxLength];
    }
  }

  /** With the default limit, a 250-character string keeps its first 200
      characters and gains the ellipsis; an empty one becomes the placeholder. */
  lemma DefaultLimitExamples(s: string)
    requires |s| == 250
    ensures Truncate(Str(s), DefaultMaxLength) == s[..200] + "..."
    ensures |Truncate(Str(s), DefaultMaxLength)| == 203
    ensures Truncate(Str(""), DefaultMaxLength) == "N/A"
  {
  }

  /** `JSON.stringify(data)` cut down to the default limit, as the HTTP and
      query records store bodies and parameters. */
  function Excerpt(data: JsValue): string {
    Truncate(FromOption(Stringify(data)), DefaultMaxLength)
  }

  /** Only an absent value is reported as the placeholder: every other
      value, `null` and `{}` included, has a non-empty JSON text, and no
      JSON text reads `N/A`. */
  lemma ExcerptPlaceholderIff(data: JsValue)
    ensures Excerpt(data) == Placeholder <==> data.Undefined?
    ensures |Excerpt(data)| <= DefaultMaxLength + |Ellipsis|
  {
    if !data.Undefined? {
      var t := Stringify(data).value;
      assert TextOf(Str(t)) == t;
      if |t| <= DefaultMaxLength {
        assert Excerpt(data)[0] == t[0] != Placeholder[0];
      }
    }
  }

  // ---------------------------------------------------------------- levels

  /** The arguments a logging call hands to `sendLogToLoki`. */
  datatype LogCall = LogCall(level: string, logType: JsValue, body: JsValue)

  /** A missing body defaults to `{}`. */
  function BodyOrDefault(body: JsValue): (r: JsValue)
    ensures !r.Undefined?
    ensures body.Undefined? ==> r == Obj([])
    ensures !body.Undefined? ==> r == body
  {
    if body.Undefined? then Obj([]) else body
  }

  /** The level each wrapper fixes: `info`, `warn` or `error`. */
  datatype Level = Info | Warn | Error {
    function Name(): string {
      match this
      case Info => "info"
      case Warn => "warn"
      case Error => "error"
    }
  }

  /** `info`, `warn` and `error`: the wrapper's level, with the type and
      the body passed on unchanged, and a missing body replaced by `{}`. */
  function Log(level: Level, logType: JsValue, body: JsValue): (c: LogCall)
    ensures c.logType == logType
    ensures c.level == "info" <==> level == Info
    ensures c.level == "warn" <==> level == Warn
    ensures c.level == "error" <==> level == Error
    ensures !body.Undefined? ==> c.body == body
    ensures body.Undefined? ==> c.body == Obj([])
  {
    LogCall(level.Name(), logType, BodyOrDefault(body))
  }

  // ---------------------------------------------------------------- records

  /** What the request-capture middleware passes to `logHttpRequest`. */
  datatype HttpRecord = HttpRecord(
    httpMethod: string, path: string, statusCode: int, hasAuth: bool,
    requestBody: JsValue, responseBody: JsValue)

  const HttpRecordKeys: seq<string> := ["method", "path", "statusCode", "hasAuth", "requestBody", "responseBody"]

  /** The properties of an HTTP record, given the two body excerpts. */
  function HttpRecordProps(rec: HttpRecord, requestExcerpt: string, responseExcerpt: string): (props: seq<(string, JsValue)>)
    ensures Keys(props) == HttpRecordKeys
    ensures Get(props, "method") == Str(rec.httpMethod)
    ensures Get(props, "path") == Str(rec.path)
    ensures Get(props, "statusCode") == Num(rec.statusCode)
    ensures Get(props, "hasAuth") == Bool(rec.hasAuth)
    ensures Get(props, "requestBody") == Str(requestExcerpt)
    ensures Get(props, "responseBody") == Str(responseExcerpt)
  {
    var props := [
      ("method", Str(rec.httpMethod)),
      ("path", Str(rec.path)),
      ("statusCode", Num(rec.statusCode)),
      ("hasAuth", Bool(rec.hasAuth)),
      ("requestBody", Str(requestExcerpt)),
      ("responseBody", Str(responseExcerpt))];
    assert Keys(props) == HttpRecordKeys by {
      var ks := Keys(props);
      assert ks[0] == "method" && ks[1] == "path" && ks[2] == "statusCode";
      assert ks[3] == "hasAuth" && ks[4] == "requestBody" && ks[5] == "responseBody";
    }
    GetFirst(props, "method", 0);
    GetFirst(props, "path", 1);
    GetFirst(props, "statusCode", 2);
    GetFirst(props, "hasAuth", 3);
    GetFirst(props, "requestBody", 4);
    GetFirst(props, "responseBody", 5);
    props
  }

  /** `logHttpRequest`: an info record of type `http_request`; method, path,
      status and auth flag pass through, both bodies are serialised and cut
      down to the default limit. */
  function LogHttpRequest(rec: HttpRecord): (c: LogCall)
    ensures c.level == "info" && c.logType == Str("http_request")
    ensures c.body.Obj? && Keys(c.body.props) == HttpRecordKeys
    ensures Get(c.body.props, "method") == Str(rec.httpMethod)
    ensures Get(c.body.props, "path") == Str(rec.path)
    ensures Get(c.body.props, "statusCode") == Num(rec.statusCode)
    ensures Get(c.body.props, "hasAuth") == Bool(rec.hasAuth)
    ensures Get(c.body.props, "requestBody") == Str(Excerpt(rec.requestBody))
    ensures Get(c.body.props, "responseBody") == Str(Excerpt(rec.responseBody))
  {
    Log(Info, Str("http_request"), Obj(HttpRecordProps(rec, Excerpt(rec.requestBody), Excerpt(rec.responseBody))))
  }

  /** `logDbQuery`: an info record of type `db_query` with the query text
      cut down, the parameters serialised and cut down, and the duration as
      given. */
  function LogDbQuery(query: JsValue, params: JsValue, durationMs: JsValue): (c: LogCall)
    ensures c.level == "info" && c.logType == Str("db_query")
    ensures c.body.Obj? && Keys(c.body.props) == ["query", "params", "durationMs"]
    ensures Get(c.body.props, "query") == Str(Truncate(query, DefaultMaxLength))
    ensures Get(c.body.props, "params") == Str(Excerpt(params))
    ensures Get(c.body.props, "durationMs") == durationMs
  {
    var props := [
      ("query", Str(Truncate(query, DefaultMaxLength))),
      ("params", Str(Excerpt(params))),
      ("durationMs", durationMs)];
    assert Keys(props) == ["query", "params", "durationMs"];
    GetFirst(props, "durationMs", 2);
    Log(Info, Str("db_query"), Obj(props))
  }

  /** `logException({ message, stack })`: an error record of type
      `exception` holding only the cut-down message and stack. */
  function LogException(arg: seq<(string, JsValue)>): (c: LogCall)
    ensures c.level == "error" && c.logType == Str("exception")
    ensures c.body.Obj? && Keys(c.body.props) == ["message", "stack"]
    ensures Get(c.body.props, "message") == Str(Truncate(Get(arg, "message"), DefaultMaxLength))
    ensures Get(c.body.props, "stack") == Str(Truncate(Get(arg, "stack"), DefaultMaxLength))
  {
    var props := [
      ("message", Str(Truncate(Get(arg, "message"), DefaultMaxLength))),
      ("stack", Str(Truncate(Get(arg, "stack"), DefaultMaxLength)))];
    assert Keys(props) == ["message", "stack"];
    Log(Error, Str("exception"), Obj(props))
  }

  /** Any other properties the caller passes (the error handler adds
      method, url and user) leave the record unchanged. */
  lemma LogExceptionDropsExtras(arg: seq<(string, JsValue)>, extra: seq<(string, JsValue)>)
    requires forall i :: 0 <= i < |extra| ==> extra[i].0 != "message" && extra[i].0 != "stack"
    ensures LogException(arg + extra) == LogException(arg)
  {
    GetIgnoresOtherKeys(arg, extra, "message");
    GetIgnoresOtherKeys(arg, extra, "stack");
  }

  // ---------------------------------------------------------------- payload

  /** The Loki timestamp: milliseconds times 1,000,000, written in decimal
      (exact for any clock value below 10^15 ms, where JavaScript prints
      the product without rounding). */
  function Timestamp(nowMs: nat): (t: string)
    ensures Text.IsDigits(t)
  {
    Text.NatToString(nowMs * 1000000)
  }

  lemma TimestampIsNanoseconds(nowMs: nat)
    ensures Text.ParseNat(Timestamp(nowMs)) == nowMs * 1000000
  {
    Text.ParseNatToString(nowMs * 1000000);
  }

  function Labels(component: string, call: LogCall): JsValue {
    Obj([("component", Str(component)), ("level", Str(call.level)), ("type", call.logType)])
  }

  /** The `{ streams }` object `sendLogToLoki` posts: one stream whose
      labels are the component, level and type, with one
      `[timestamp, JSON(body)]` pair. */
  function LokiPayload(component: string, call: LogCall, nowMs: nat): JsValue {
    var message := Stringify(BodyOrDefault(call.body)).value;
    Obj([("streams", Arr([
      Obj([("stream", Labels(component, call)),
           ("values", Arr([Arr([Str(Timestamp(nowMs)), Str(message)])]))])]))])
  }

  /** Reading the payload back: exactly one stream, carrying the call's
      labels and exactly one value pair whose timestamp is the clock in
      nanoseconds and whose message is the JSON text of the body. */
  lemma LokiPayloadShape(component: string, call: LogCall, nowMs: nat)
    ensures var p := LokiPayload(component, call, nowMs);
            var streams := Get(p.props, "streams");
            && p.Obj? && Keys(p.props) == ["streams"]
            && streams.Arr? && |streams.items| == 1
            && streams.items[0].Obj?
            && Get(streams.items[0].props, "stream") == Labels(component, call)
            && var values := Get(streams.items[0].props, "values");
               && values.Arr? && |values.items| == 1
               && values.items[0].Arr? && |values.items[0].items| == 2
               && values.items[0].items[0].Str?
               && Text.IsDigits(values.items[0].items[0].s)
               && Text.ParseNat(values.items[0].items[0].s) == nowMs * 1000000
               && values.items[0].items[1] == Str(Stringify(BodyOrDefault(call.body)).value)
    ensures var labels := Labels(component, call);
            && Keys(labels.props) == ["component", "level", "type"]
            && Get(labels.props, "component") == Str(component)
            && Get(labels.props, "level") == Str(call.level)
            && Get(labels.props, "type") == call.logType
  {
    GetFirst(Labels(component, call).props, "type", 2);
    TimestampIsNanoseconds(nowMs);
  }

  /** End to end, a call of a level wrapper posts one stream labelled with
      the wrapper's level, the call's type and a non-empty component that
      is the configured name exactly when that name is truthy; the one
      message is the JSON text of the body, `{}` when none was given. */
  lemma PostedLabels(configured: Option<string>, level: Level, logType: JsValue, body: JsValue, nowMs: nat)
    ensures var p := LokiPayload(ComponentLabel(configured), Log(level, logType, body), nowMs);
            var streams := Get(p.props, "streams");
            && streams.Arr? && |streams.items| == 1 && streams.items[0].Obj?
            && (var values := Get(streams.items[0].props, "values");
                values.Arr? && |values.items| == 1 && values.items[0].Arr? && |values.items[0].items| == 2 &&
                values.items[0].items[1] == Str(Stringify(if body.Undefined? then Obj([]) else body).value))
            && var labels := Get(streams.items[0].props, "stream");
               && labels.Obj?
               && Get(labels.props, "level") == Str(level.Name())
               && Get(labels.props, "type") == logType
               && var component := Get(labels.props, "component");
                  && component.Str? && component.s != ""
                  && ((configured.Some? && component.s == configured.value) <==> Truthy(FromOption(configured)))
  {
    LokiPayloadShape(ComponentLabel(configured), Log(level, logType, body), nowMs);
  }

  /** Two different wrappers never post the same level label. */
  lemma LevelLabelsDiffer(l1: Level, l2: Level, logType: JsValue, body: JsValue)
    requires l1 != l2
    ensures Labels(DefaultComponent, Log(l1, logType, body)) != Labels(DefaultComponent, Log(l2, logType, body))
    ensures Log(l1, logType, body).level != Log(l2, logType, body).level
  {
  }
}

=== FILE: metrics.dfy ===
/** The metric window of src/metrics.js (`Metrics`): per-method request
    counts, the active-user set, auth and order counters and latency
    samples; the record operations that update it; the report rendered
    from it; and the flush that sends the report and empties it.
    Prices and latencies are integers; JavaScript's float arithmetic is
    not modelled. */
module Metrics {
  import opened Wrappers
  import opened Collections
  import Text
  import LineProtocol
  import Delivery

  /** The request-count keys, in the order the constructor creates them. */
  const Methods: seq<string> := ["GET", "POST", "PUT", "DELETE"]

  /** An ordered item; only its price is read. */
  datatype Item = Item(price: int)

  /** One window of counters. `requestCounts` is the `{ GET, POST, PUT,
      DELETE }` object as its entries in insertion order. */
  datatype Window = Window(
    requestCounts: seq<(string, nat)>,
    activeUsers: set<int>,
    authSuccess: nat,
    authFailure: nat,
    sold: nat,
    creationFailures: nat,
    revenue: int,
    latencies: seq<int>)

  /** The window the constructor builds. */
  const Initial: Window :=
    Window([("GET", 0), ("POST", 0), ("PUT", 0), ("DELETE", 0)], {}, 0, 0, 0, 0, 0, [])

  /** The window's invariant: exactly the four method keys, in order. */
  predicate Valid(w: Window) {
    Keys(w.requestCounts) == Methods
  }

  /** `requestCounts[k]`, read as 0 when the key is absent. */
  function Count(counts: seq<(string, nat)>, k: string): nat
    decreases |counts|
  {
    if |counts| == 0 then 0
    else if counts[0].0 == k then counts[0].1
    else Count(counts[1..], k)
  }

  /** `requestCounts[k]++` for a key that is present; nothing otherwise. */
  function Bump(counts: seq<(string, nat)>, k: string): (r: seq<(string, nat)>)
    ensures Keys(r) == Keys(counts)
    ensures forall j :: j != k ==> Count(r, j) == Count(counts, j)
    ensures k in Keys(counts) ==> Count(r, k) == Count(counts, k) + 1
    ensures k !in Keys(counts) ==> r == counts
    decreases |counts|
  {
    if |counts| == 0 then counts
    else if counts[0].0 == k then
      assert Keys(counts)[0] == k;
      [(k, counts[0].1 + 1)] + counts[1..]
    else
      var rest := Bump(counts[1..], k);
      assert Keys(counts) == [counts[0].0] + Keys(counts[1..]);
      [counts[0]] + rest
  }

  /** `requestTracker`: counts the request under its method when that
      method is one of the window's keys, and adds the user id when it is
      truthy. `userId` is `req.user.id` when `req.user` is set. */
  function RequestTracker(w: Window, httpMethod: string, userId: Option<int>): (r: Window)
    ensures Keys(r.requestCounts) == Keys(w.requestCounts)
    ensures forall k :: (Count(r.requestCounts, k) ==
      Count(w.requestCounts, k) + (if k == httpMethod && httpMethod in Keys(w.requestCounts) then 1 else 0))
    ensures httpMethod !in Keys(w.requestCounts) ==> r.requestCounts == w.requestCounts
    ensures forall u :: u in r.activeUsers <==> u in w.activeUsers || (userId == Some(u) && u != 0)
    ensures r.(requestCounts := w.requestCounts, activeUsers := w.activeUsers) == w
  {
    var users := if userId.Some? && userId.value != 0 then w.activeUsers + {userId.value} else w.activeUsers;
    w.(requestCounts := Bump(w.requestCounts, httpMethod), activeUsers := users)
  }

  /** `recordAuthAttempt`: exactly one of the two counters grows by one. */
  function RecordAuthAttempt(w: Window, success: bool): (r: Window)
    ensures r.authSuccess + r.authFailure == w.authSuccess + w.authFailure + 1
    ensures success ==> r.authSuccess == w.authSuccess + 1 && r.authFailure == w.authFailure
    ensures !success ==> r.authFailure == w.authFailure + 1 && r.authSuccess == w.authSuccess
    ensures r.(authSuccess := w.authSuccess, authFailure := w.authFailure) == w
  {
    if success then w.(authSuccess := w.authSuccess + 1)
    else w.(authFailure := w.authFailure + 1)
  }

  /** Sum of the prices, added left to right. */
  function PriceSum(items: seq<Item>): int
    decreases |items|
  {
    if |items| == 0 then 0 else PriceSum(items[..|items| - 1]) + items[|items| - 1].price
  }

  /** The `for (const item of items) sum += item.price` loop. */
  method SumPrices(items: seq<Item>) returns (sum: int)
    ensures sum == PriceSum(items)
  {
    sum := 0;
    var i := 0;
    while i < |items|
      invariant 0 <= i <= |items|
      invariant sum == PriceSum(items[..i])
    {
      assert items[..i + 1][..i] == items[..i];
      sum := sum + items[i].price;
      i := i + 1;
    }
    assert items[..i] == items;
  }

  /** `recordOrder`. `items` is `None` when the argument is not an array,
      `latency` is `None` when it is `undefined`. A successful order with
      an array (possibly empty) adds its size and its price sum and keeps
      the latency sample; anything else counts one failure. */
  function RecordOrder(w: Window, items: Option<seq<Item>>, success: bool, latency: Option<int>): (r: Window)
    ensures success && items.Some? ==>
      && r.sold == w.sold + |items.value|
      && r.revenue == w.revenue + PriceSum(items.value)
      && r.creationFailures == w.creationFailures
      && r.latencies == w.latencies + (if latency.Some? then [latency.value] else [])
    ensures !(success && items.Some?) ==>
      r.creationFailures == w.creationFailures + 1 && r.(creationFailures := w.creationFailures) == w
    ensures r.(sold := w.sold, revenue := w.revenue, creationFailures := w.creationFailures, latencies := w.latencies) == w
  {
    if success && items.Some? then
      w.(sold := w.sold + |items.value|,
         revenue := w.revenue + PriceSum(items.value),
         latencies := if latency.Some? then w.latencies + [latency.value] else w.latencies)
    else
      w.(creationFailures := w.creationFailures + 1)
  }

  /** `resetCounters`: every existing method key is kept with count 0, and
      everything else goes back to its initial value. */
  function Reset(w: Window): (r: Window)
    ensures Keys(r.requestCounts) == Keys(w.requestCounts)
    ensures forall k :: Count(r.requestCounts, k) == 0
    ensures r.(requestCounts := Initial.requestCounts) == Initial
    ensures Valid(w) ==> r == Initial
  {
    var zeros := seq(|w.requestCounts|, i requires 0 <= i < |w.requestCounts| => (w.requestCounts[i].0, 0));
    assert Keys(zeros) == Keys(w.requestCounts);
    CountOfZeros(zeros);
    assert Valid(w) ==> zeros == Initial.requestCounts by {
      if Valid(w) {
        forall i | 0 <= i < 4 ensures zeros[i] == Initial.requestCounts[i] {
          assert Keys(w.requestCounts)[i] == Methods[i];
        }
      }
    }
    Window(zeros, {}, 0, 0, 0, 0, 0, [])
  }

  lemma {:induction false} CountOfZeros(counts: seq<(string, nat)>)
    requires forall i :: 0 <= i < |counts| ==> counts[i].1 == 0
    ensures forall k :: Count(counts, k) == 0
    decreases |counts|
  {
    if |counts| > 0 {
      CountOfZeros(counts[1..]);
    }
  }

  // ---------------------------------------------------------------- events

  /** A recording call, as it reaches the window from a request handler. */
  datatype Event =
    | Request(httpMethod: string, userId: Option<int>)
    | AuthAttempt(success: bool)
    | Order(items: Option<seq<Item>>, success: bool, latency: Option<int>)

  function Apply(w: Window, e: Event): Window {
    match e
    case Request(m, u) => RequestTracker(w, m, u)
    case AuthAttempt(s) => RecordAuthAttempt(w, s)
    case Order(items, s, l) => RecordOrder(w, items, s, l)
  }

  /** The events applied in order. */
  function ApplyAll(w: Window, es: seq<Event>): Window
    decreases |es|
  {
    if |es| == 0 then w else Apply(ApplyAll(w, es[..|es| - 1]), es[|es| - 1])
  }

  /** Number of requests with method `m` among the events. */
  function RequestsFor(es: seq<Event>, m: string): nat
    decreases |es|
  {
    if |es| == 0 then 0
    else RequestsFor(es[..|es| - 1], m) + (if es[|es| - 1].Request? && es[|es| - 1].httpMethod == m then 1 else 0)
  }

  /** Recording keeps the method keys, and each method's count grows by
      the number of requests with that method when the method is a key;
      other methods are never counted. */
  lemma {:induction false} CountsAfterEvents(w: Window, es: seq<Event>)
    ensures Keys(ApplyAll(w, es).requestCounts) == Keys(w.requestCounts)
    ensures forall m :: (Count(ApplyAll(w, es).requestCounts, m) ==
      Count(w.requestCounts, m) + (if m in Keys(w.requestCounts) then RequestsFor(es, m) else 0))
    decreases |es|
  {
    if |es| > 0 {
      CountsAfterEvents(w, es[..|es| - 1]);
    }
  }

  /** From a fresh window, N requests with a known method and none with
      the others leave that count at N and the others at 0. */
  lemma CountsFromInitial(es: seq<Event>)
    ensures Valid(ApplyAll(Initial, es))
    ensures forall m :: m in Methods ==> Count(ApplyAll(Initial, es).requestCounts, m) == RequestsFor(es, m)
    ensures forall m :: m !in Methods ==> Count(ApplyAll(Initial, es).requestCounts, m) == 0
  {
    assert Keys(Initial.requestCounts) == Methods;
    CountOfZeros(Initial.requestCounts);
    CountsAfterEvents(Initial, es);
  }

  /** Active users form a set: recording the same id again leaves it as it was. */
  lemma ActiveUserIdempotent(w: Window, m1: string, m2: string, id: int)
    ensures RequestTracker(RequestTracker(w, m1, Some(id)), m2, Some(id)).activeUsers
         == RequestTracker(w, m1, Some(id)).activeUsers
  {
  }

  /** Two distinct truthy ids from a fresh window give two active users. */
  lemma TwoDistinctUsers(a: int, b: int, m: string)
    requires a != 0 && b != 0 && a != b
    ensures |RequestTracker(RequestTracker(Initial, m, Some(a)), m, Some(b)).activeUsers| == 2
  {
    var s := RequestTracker(RequestTracker(Initial, m, Some(a)), m, Some(b)).activeUsers;
    assert s == {a, b};
  }

  // ---------------------------------------------------------------- report

  /** A field value before it is written into a line. */
  datatype FieldValue = IntValue(i: int) | RealValue(r: real) | TextValue(t: string)

  /** Host figures sampled at report time (already formatted by `toFixed(2)`). */
  datatype HostSample = HostSample(cpuUsage: string, memoryUsage: string)

  /** One measurement of the report, before rendering. */
  datatype Point = Point(name: string, tags: seq<(string, string)>, fields: seq<(string, FieldValue)>)

  /** Average latency: 0 without samples, otherwise their arithmetic mean. */
  function MeanLatency(latencies: seq<int>): (r: real)
    ensures |latencies| == 0 ==> r == 0.0
    ensures |latencies| > 0 ==> r * (|latencies| as real) == Sum(latencies) as real
  {
    if |latencies| == 0 then 0.0 else Sum(latencies) as real / |latencies| as real
  }

  function SourceTag(source: string): seq<(string, string)> {
    [("source", source)]
  }

  /** One `http_requests` point per entry of the request counts. */
  function RequestPoints(counts: seq<(string, nat)>, source: string): (r: seq<Point>)
    ensures |r| == |counts|
  {
    seq(|counts|, i requires 0 <= i < |counts| =>
      Point("http_requests", [("source", source), ("method", counts[i].0)], [("total", IntValue(counts[i].1))]))
  }

  /** The points `reportMetrics` adds, in order. */
  function Report(w: Window, source: string, host: HostSample): (r: seq<Point>)
    ensures |r| == |w.requestCounts| + 5
    ensures forall i :: 0 <= i < |r| ==> |r[i].tags| >= 1 && r[i].tags[0] == ("source", source)
  {
    RequestPoints(w.requestCounts, source) + [
      Point("active_users", SourceTag(source), [("count", IntValue(|w.activeUsers|))]),
      Point("auth_attempts", SourceTag(source),
        [("success", IntValue(w.authSuccess)), ("failure", IntValue(w.authFailure))]),
      Point("system_metrics", SourceTag(source),
        [("cpu_usage", TextValue(host.cpuUsage)), ("memory_usage", TextValue(host.memoryUsage))]),
      Point("pizza_metrics", SourceTag(source),
        [("sold", IntValue(w.sold)), ("failures", IntValue(w.creationFailures)), ("revenue", IntValue(w.revenue))]),
      Point("pizza_latency", SourceTag(source), [("average_ms", RealValue(MeanLatency(w.latencies)))])
    ]
  }

  const ReportNames: seq<string> := [
    "http_requests", "http_requests", "http_requests", "http_requests",
    "active_users", "auth_attempts", "system_metrics", "pizza_metrics", "pizza_latency"]

  /** On a valid window the report has nine points: the four methods in
      GET, POST, PUT, DELETE order with their counts, then the five
      summary points, each tagged with the source alone and carrying the
      window's figures. */
  lemma ReportContents(w: Window, source: string, host: HostSample)
    requires Valid(w)
    ensures |Report(w, source, host)| == 9
    ensures forall i :: 0 <= i < 9 ==> Report(w, source, host)[i].name == ReportNames[i]
    ensures forall i :: 0 <= i < 4 ==>
      Report(w, source, host)[i].tags == [("source", source), ("method", Methods[i])] &&
      Report(w, source, host)[i].fields == [("total", IntValue(Count(w.requestCounts, Methods[i])))]
    ensures forall i :: 4 <= i < 9 ==> Report(w, source, host)[i].tags == [("source", source)]
    ensures Report(w, source, host)[4].fields == [("count", IntValue(|w.activeUsers|))]
    ensures Report(w, source, host)[5].fields ==
      [("success", IntValue(w.authSuccess)), ("failure", IntValue(w.authFailure))]
    ensures Report(w, source, host)[6].fields ==
      [("cpu_usage", TextValue(host.cpuUsage)), ("memory_usage", TextValue(host.memoryUsage))]
    ensures Report(w, source, host)[7].fields ==
      [("sold", IntValue(w.sold)), ("failures", IntValue(w.creationFailures)), ("revenue", IntValue(w.revenue))]
    ensures Report(w, source, host)[8].fields == [("average_ms", RealValue(MeanLatency(w.latencies)))]
  {
    var c := w.requestCounts;
    var r := Report(w, source, host);
    assert forall i :: 0 <= i < 4 ==> r[i] == RequestPoints(c, source)[i];
    assert Keys(c)[0] == "GET" && Keys(c)[1] == "POST" && Keys(c)[2] == "PUT" && Keys(c)[3] == "DELETE";
    assert Count(c, "GET") == c[0].1;
    assert Count(c[1..][1..][1..], "DELETE") == c[3].1;
    assert Count(c[1..][1..], "DELETE") == c[3].1;
    assert Count(c[1..][1..], "PUT") == c[2].1;
    assert Count(c[1..], "DELETE") == c[3].1;
    assert Count(c[1..], "PUT") == c[2].1;
    assert Count(c[1..], "POST") == c[1].1;
    assert Count(c, "POST") == c[1].1;
    assert Count(c, "PUT") == c[2].1;
    assert Count(c, "DELETE") == c[3].1;
    forall i | 0 <= i < 4
      ensures r[i].tags == [("source", source), ("method", Methods[i])]
      ensures r[i].fields == [("total", IntValue(Count(c, Methods[i])))]
    {
      assert c[i].0 == Keys(c)[i] == Methods[i];
    }
  }

  /** How a field value is written: integers in decimal, formatted host
      figures as they are, an integral average as an integer, and any other
      average through `showReal` (JavaScript's number-to-text conversion,
      which is not modelled). */
  function Render(v: FieldValue, showReal: real -> string): (s: string)
    ensures v.IntValue? ==> Text.IsNumeral(s, v.i)
    ensures v.RealValue? && v.r == v.r.Floor as real ==> Text.IsNumeral(s, v.r.Floor)
    ensures v.RealValue? && v.r != v.r.Floor as real ==> s == showReal(v.r)
    ensures v.TextValue? ==> s == v.t
  {
    match v
    case IntValue(i) => Text.IntToString(i)
    case TextValue(t) => t
    case RealValue(r) => if r == r.Floor as real then Text.IntToString(r.Floor) else showReal(r)
  }

  function ToMeasurement(p: Point, showReal: real -> string): LineProtocol.Measurement {
    LineProtocol.Measurement(p.name, p.tags,
      seq(|p.fields|, i requires 0 <= i < |p.fields| => (p.fields[i].0, Render(p.fields[i].1, showReal))))
  }

  function Measurements(ps: seq<Point>, showReal: real -> string): (ms: seq<LineProtocol.Measurement>)
    ensures |ms| == |ps|
  {
    seq(|ps|, i requires 0 <= i < |ps| => ToMeasurement(ps[i], showReal))
  }

  /** The newline-joined text handed to the metrics endpoint. */
  function Encode(ps: seq<Point>, showReal: real -> string): string {
    LineProtocol.ToString(LineProtocol.AddAll(LineProtocol.NewBuilder, Measurements(ps, showReal)), "\n")
  }

  /** The encoded batch splits back into one line per point, in order,
      when no rendered line holds a newline. */
  lemma EncodeSplitsIntoLines(ps: seq<Point>, showReal: real -> string)
    requires |ps| >= 1
    requires forall i :: 0 <= i < |ps| ==> '\n' !in LineProtocol.Line(ToMeasurement(ps[i], showReal))
    ensures |Text.Split(Encode(ps, showReal), '\n')| == |ps|
    ensures forall i :: 0 <= i < |ps| ==>
      Text.Split(Encode(ps, showReal), '\n')[i] == LineProtocol.Line(ToMeasurement(ps[i], showReal))
  {
    var ms := Measurements(ps, showReal);
    LineProtocol.AddAllKeepsOrder(LineProtocol.NewBuilder, ms);
    var b := LineProtocol.AddAll(LineProtocol.NewBuilder, ms);
    assert forall i :: 0 <= i < |b.lines| ==> b.lines[i] == LineProtocol.Line(ms[i]);
    LineProtocol.ToStringSplitsBack(b);
  }

  lemma IntPointMeasurement(name: string, tags: seq<(string, string)>, k: string, n: int, showReal: real -> string)
    ensures ToMeasurement(Point(name, tags, [(k, IntValue(n))]), showReal)
         == LineProtocol.Measurement(name, tags, [(k, Text.IntToString(n))])
  {
  }

  /** Each of the first four report lines of a valid window is exactly
      `http_requests,source=S,method=M total=N` with N the count of M. */
  lemma HttpRequestsLine(w: Window, source: string, host: HostSample, showReal: real -> string, i: nat)
    requires Valid(w) && i < 4
    ensures LineProtocol.Line(ToMeasurement(Report(w, source, host)[i], showReal))
         == "http_requests,source=" + source + ",method=" + Methods[i] + " total="
            + Text.IntToString(Count(w.requestCounts, Methods[i]))
  {
    var n := Count(w.requestCounts, Methods[i]);
    HttpMeasurement(w, source, host, showReal, i);
    LineProtocol.TwoTagLine("http_requests", "source", source, "method", Methods[i], "total", Text.IntToString(n));
  }

  lemma HttpMeasurement(w: Window, source: string, host: HostSample, showReal: real -> string, i: nat)
    requires Valid(w) && i < 4
    ensures ToMeasurement(Report(w, source, host)[i], showReal)
         == LineProtocol.Measurement("http_requests", [("source", source), ("method", Methods[i])],
              [("total", Text.IntToString(Count(w.requestCounts, Methods[i])))])
  {
    HttpPoint(w, source, host, i);
    IntPointMeasurement("http_requests", [("source", source), ("method", Methods[i])], "total",
      Count(w.requestCounts, Methods[i]), showReal);
  }

  lemma HttpPoint(w: Window, source: string, host: HostSample, i: nat)
    requires Valid(w) && i < 4
    ensures Report(w, source, host)[i]
         == Point("http_requests", [("source", source), ("method", Methods[i])],
                  [("total", IntValue(Count(w.requestCounts, Methods[i])))])
  {
    ReportContents(w, source, host);
  }

  const ThreeGetsTwoPosts: seq<Event> := [
    Request("GET", None), Request("GET", None), Request("GET", None),
    Request("POST", None), Request("POST", None)]

  lemma ThreeGetsTwoPostsCounted()
    ensures RequestsFor(ThreeGetsTwoPosts, "GET") == 3 && RequestsFor(ThreeGetsTwoPosts, "POST") == 2
  {
    var es := ThreeGetsTwoPosts;
    var g := Request("GET", None);
    var p := Request("POST", None);
    assert RequestsFor([g], "GET") == 1 && RequestsFor([g], "POST") == 0 by {
      assert [g][..0] == [];
    }
    assert RequestsFor([g, g], "GET") == 2 && RequestsFor([g, g], "POST") == 0 by {
      assert [g, g][..1] == [g];
    }
    assert RequestsFor([g, g, g], "GET") == 3 && RequestsFor([g, g, g], "POST") == 0 by {
      assert [g, g, g][..2] == [g, g];
    }
    assert RequestsFor([g, g, g, p], "GET") == 3 && RequestsFor([g, g, g, p], "POST") == 1 by {
      assert [g, g, g, p][..3] == [g, g, g];
    }
    assert es[..4] == [g, g, g, p];
  }

  /** Three GET and two POST requests give a report whose first two lines
      are exactly `http_requests,source=S,method=GET total=3` and
      `http_requests,source=S,method=POST total=2`. */
  lemma GetsAndPostsReported(source: string, host: HostSample, showReal: real -> string)
    ensures var ps := Report(ApplyAll(Initial, ThreeGetsTwoPosts), source, host);
            && LineProtocol.Line(ToMeasurement(ps[0], showReal)) == "http_requests,source=" + source + ",method=GET total=3"
            && LineProtocol.Line(ToMeasurement(ps[1], showReal)) == "http_requests,source=" + source + ",method=POST total=2"
  {
    var w := ApplyAll(Initial, ThreeGetsTwoPosts);
    ThreeGetsTwoPostsWindow();
    HttpRequestsLine(w, source, host, showReal, 0);
    HttpRequestsLine(w, source, host, showReal, 1);
    SmallNumerals();
  }

  lemma ThreeGetsTwoPostsWindow()
    ensures var w := ApplyAll(Initial, ThreeGetsTwoPosts);
            Valid(w) && Count(w.requestCounts, Methods[0]) == 3 && Count(w.requestCounts, Methods[1]) == 2
  {
    CountsFromInitial(ThreeGetsTwoPosts);
    ThreeGetsTwoPostsCounted();
  }

  lemma SmallNumerals()
    ensures Text.IntToString(3) == "3" && Text.IntToString(2) == "2"
  {
  }

  // ---------------------------------------------------------------- flush

  /** What the recording calls that ran during a flush add up to when laid
      over a window: counters add, sets unite, samples concatenate. */
  ghost predicate Splits(whole: Window, before: Window, after: Window) {
    && Keys(whole.requestCounts) == Keys(before.requestCounts) == Keys(after.requestCounts)
    && (forall m :: Count(whole.requestCounts, m) == Count(before.requestCounts, m) + Count(after.requestCounts, m))
    && whole.activeUsers == before.activeUsers + after.activeUsers
    && whole.authSuccess == before.authSuccess + after.authSuccess
    && whole.authFailure == before.authFailure + after.authFailure
    && whole.sold == before.sold + after.sold
    && whole.creationFailures == before.creationFailures + after.creationFailures
    && whole.revenue == before.revenue + after.revenue
    && whole.latencies == before.latencies + after.latencies
  }

  /** Recording on top of `w` is the same as recording on an emptied copy
      and adding `w` back: every event lands once in the combined total. */
  lemma {:induction false} EventsSplit(w: Window, es: seq<Event>)
    ensures Splits(ApplyAll(w, es), w, ApplyAll(Reset(w), es))
    decreases |es|
  {
    var r := Reset(w);
    if |es| == 0 {
      assert w.latencies + r.latencies == w.latencies;
    } else {
      var init := es[..|es| - 1];
      EventsSplit(w, init);
      var a := ApplyAll(w, init);
      var b := ApplyAll(r, init);
      var e := es[|es| - 1];
      match e {
        case Request(m, u) =>
        case AuthAttempt(s) =>
        case Order(items, s, l) =>
          if s && items.Some? && l.Some? {
            assert (w.latencies + b.latencies) + [l.value] == w.latencies + (b.latencies + [l.value]);
          }
      }
    }
  }

  /** `reportMetrics` as written: the batch is rendered from the window,
      the send is awaited, and the counters are reset afterwards. Handlers
      that run while the send is awaited (`during`) record into the live
      window, and the reset then discards them. */
  method ReportMetricsAsWritten(w: Window, source: string, host: HostSample, showReal: real -> string,
                                reply: nat -> bool, during: seq<Event>)
    returns (payload: string, d: Delivery.Delivery, next: Window)
    requires Valid(w)
    ensures payload == Encode(Report(w, source, host), showReal)
    ensures Delivery.Conforms(reply, Delivery.DefaultRetries, d)
    ensures next == Initial
  {
    payload := Encode(Report(w, source, host), showReal);
    d := Delivery.SendToGrafana(reply, Delivery.DefaultRetries);
    var live := ApplyAll(w, during);
    CountsAfterEvents(w, during);
    next := Reset(live);
  }

  /** One auth success recorded while the send is awaited is counted in
      neither the batch that was sent nor the window that follows. */
  lemma RecordDuringSendIsLost(w: Window)
    requires Valid(w)
    ensures var during := [AuthAttempt(true)];
            var live := ApplyAll(w, during);
            var next := Reset(live);
            live.authSuccess == w.authSuccess + 1 && w.authSuccess + next.authSuccess != live.authSuccess
  {
    var live := ApplyAll(w, [AuthAttempt(true)]);
    assert Valid(live);
  }

  /** `reportMetrics` with the window swapped out before the send: the
      batch is rendered from the window, a fresh window takes its place at
      once, and recording calls that run during the send land in the fresh
      window. Every such call is counted exactly once across the batch and
      the next window. */
  method ReportMetrics(w: Window, source: string, host: HostSample, showReal: real -> string,
                       reply: nat -> bool, during: seq<Event>)
    returns (payload: string, d: Delivery.Delivery, next: Window)
    ensures payload == Encode(Report(w, source, host), showReal)
    ensures Delivery.Conforms(reply, Delivery.DefaultRetries, d)
    ensures Splits(ApplyAll(w, during), w, next)
    ensures Valid(w) ==> next == ApplyAll(Initial, during)
  {
    payload := Encode(Report(w, source, host), showReal);
    var emptied := Reset(w);
    d := Delivery.SendToGrafana(reply, Delivery.DefaultRetries);
    next := ApplyAll(emptied, during);
    EventsSplit(w, during);
  }
}

=== FILE: service.dfy ===
/** The order in which the service mounts the request tracker and the
    session middleware, and what that order means for the active-user
    count. */
module Service {
  import opened Wrappers
  import Collections
  import Metrics
  import Auth

  /** The metric window after a request has passed both middlewares, and
      the session user the rest of the pipeline sees. */
  datatype Admitted = Admitted(window: Metrics.Window, user: Option<Auth.User>)

  function UserId(user: Option<Auth.User>): Option<int> {
    if user.Some? then Some(user.value.id) else None
  }

  /** The service as mounted: the tracker runs first, before the session
      user is attached, so it sees no user. */
  function AdmitAsWritten(
    w: Metrics.Window, httpMethod: string, header: Option<string>,
    loggedIn: string -> bool, verify: string -> Option<Auth.User>): (a: Admitted)
    ensures a.window.activeUsers == w.activeUsers
    ensures Collections.Keys(a.window.requestCounts) == Collections.Keys(w.requestCounts)
    ensures forall m :: (Metrics.Count(a.window.requestCounts, m) == Metrics.Count(w.requestCounts, m) +
      (if m == httpMethod && httpMethod in Collections.Keys(w.requestCounts) then 1 else 0))
    ensures a.user == Auth.SetAuthUser(Auth.ReadAuthToken(header), loggedIn, verify)
  {
    var tracked := Metrics.RequestTracker(w, httpMethod, None);
    Admitted(tracked, Auth.SetAuthUser(Auth.ReadAuthToken(header), loggedIn, verify))
  }

  /** The intended order: the session user is attached first, so the
      tracker records a signed-in user's (truthy) id. */
  function Admit(
    w: Metrics.Window, httpMethod: string, header: Option<string>,
    loggedIn: string -> bool, verify: string -> Option<Auth.User>): (a: Admitted)
    ensures a.user == Auth.SetAuthUser(Auth.ReadAuthToken(header), loggedIn, verify)
    ensures forall u :: u in a.window.activeUsers <==>
      u in w.activeUsers || (a.user.Some? && a.user.value.id == u && u != 0)
    ensures Collections.Keys(a.window.requestCounts) == Collections.Keys(w.requestCounts)
    ensures forall m :: (Metrics.Count(a.window.requestCounts, m) == Metrics.Count(w.requestCounts, m) +
      (if m == httpMethod && httpMethod in Collections.Keys(w.requestCounts) then 1 else 0))
  {
    var user := Auth.SetAuthUser(Auth.ReadAuthToken(header), loggedIn, verify);
    Admitted(Metrics.RequestTracker(w, httpMethod, UserId(user)), user)
  }

  /** Both orders count the request the same way; only the user set differs. */
  lemma OrdersAgreeOnCounts(
    w: Metrics.Window, httpMethod: string, header: Option<string>,
    loggedIn: string -> bool, verify: string -> Option<Auth.User>)
    ensures var written := AdmitAsWritten(w, httpMethod, header, loggedIn, verify);
      var intended := Admit(w, httpMethod, header, loggedIn, verify);
      written.user == intended.user &&
      written.window.(activeUsers := intended.window.activeUsers) == intended.window
  {
  }

  /** A request with a valid bearer session for user 7 is counted as an
      active user in the intended order and not at all as mounted. */
  lemma SignedInUserMissed(w: Metrics.Window, httpMethod: string, t: string, u: Auth.User)
    requires t != "" && ' ' !in t && u.id == 7 && 7 !in w.activeUsers
    ensures 7 in Admit(w, httpMethod, Some("Bearer " + t), s => true, s => Some(u)).window.activeUsers
    ensures 7 !in AdmitAsWritten(w, httpMethod, Some("Bearer " + t), s => true, s => Some(u)).window.activeUsers
  {
    Auth.BearerRoundTrip(t);
  }
}

=== FILE: text.dfy ===
/** String helpers that stand for the JavaScript built-ins the telemetry
    code leans on: `Array.prototype.join`, `String.prototype.split` with a
    one-character separator, and the decimal rendering of integers. */
module Text {

  /** `parts.join(sep)`. */
  function Join(parts: seq<string>, sep: string): string
    decreases |parts|
  {
    if |parts| == 0 then ""
    else if |parts| == 1 then parts[0]
    else parts[0] + sep + Join(parts[1..], sep)
  }

  /** Position of the first `c` in `s`. */
  function IndexOf(s: string, c: char): (i: nat)
    requires c in s
    ensures i < |s| && s[i] == c
    ensures c !in s[..i]
  {
    if s[0] == c then 0
    else
      var j := IndexOf(s[1..], c);
      assert s[..j + 1] == [s[0]] + s[1..][..j];
      j + 1
  }

  /** The first occurrence is the only one with no earlier occurrence. */
  lemma IndexOfIsFirst(s: string, c: char, k: nat)
    requires k < |s| && s[k] == c && c !in s[..k]
    ensures IndexOf(s, c) == k
  {
  }

  /** `s.split(c)`: the maximal `c`-free pieces between occurrences of `c`.
      There is always at least one piece (`"".split(" ")` is `[""]`). */
  function Split(s: string, c: char): (parts: seq<string>)
    ensures |parts| >= 1
    ensures forall i :: 0 <= i < |parts| ==> c !in parts[i]
    decreases |s|
  {
    if c !in s then [s]
    else
      var i := IndexOf(s, c);
      [s[..i]] + Split(s[i + 1..], c)
  }

  /** Joining the pieces back with the separator restores the input. */
  lemma {:induction false} JoinSplit(s: string, c: char)
    ensures Join(Split(s, c), [c]) == s
    decreases |s|
  {
    if c in s {
      var i := IndexOf(s, c);
      var rest := Split(s[i + 1..], c);
      JoinSplit(s[i + 1..], c);
      assert Split(s, c) == [s[..i]] + rest;
      JoinCons(s[..i], rest, [c]);
      assert s == s[..i] + [c] + s[i + 1..];
    }
  }

  /** Splitting a join of separator-free pieces gives the pieces back. */
  lemma {:induction false} SplitJoin(parts: seq<string>, c: char)
    requires |parts| >= 1
    requires forall i :: 0 <= i < |parts| ==> c !in parts[i]
    ensures Split(Join(parts, [c]), c) == parts
    decreases |parts|
  {
    if |parts| > 1 {
      var tail := Join(parts[1..], [c]);
      var s := parts[0] + [c] + tail;
      assert Join(parts, [c]) == s;
      assert s[..|parts[0]|] == parts[0];
      IndexOfIsFirst(s, c, |parts[0]|);
      assert s[|parts[0]| + 1..] == tail;
      SplitJoin(parts[1..], c);
      assert parts == [parts[0]] + parts[1..];
    }
  }

  /** Joining a leading piece onto a non-empty rest puts exactly one
      separator between them. */
  lemma JoinCons(head: string, rest: seq<string>, sep: string)
    requires |rest| >= 1
    ensures Join([head] + rest, sep) == head + sep + Join(rest, sep)
  {
    assert ([head] + rest)[1..] == rest;
  }

  /** The characters of a decimal numeral. */
  predicate IsDigits(s: string) {
    forall i :: 0 <= i < |s| ==> '0' <= s[i] <= '9'
  }

  function DigitChar(d: nat): (c: char)
    requires d < 10
    ensures '0' <= c <= '9'
  {
    ('0' as int + d) as char
  }

  function DigitValue(c: char): (d: nat)
    requires '0' <= c <= '9'
    ensures d < 10
  {
    c as int - '0' as int
  }

  /** Lower-case hexadecimal digit, as in the `\u00XX` escapes of JSON. */
  function HexDigit(d: nat): (c: char)
    requires d < 16
    ensures c in "0123456789abcdef"
  {
    if d < 10 then DigitChar(d) else ('a' as int + d - 10) as char
  }

  /** Decimal numeral of `n`, as JavaScript renders a non-negative integer. */
  function NatToString(n: nat): (r: string)
    ensures |r| >= 1 && IsDigits(r)
    decreases n
  {
    if n < 10 then [DigitChar(n)] else NatToString(n / 10) + [DigitChar(n % 10)]
  }

  /** `s` is the decimal numeral of `i`: digits reading back as `i`, or a
      `-` followed by digits reading back as `-i`. */
  predicate IsNumeral(s: string, i: int) {
    if i >= 0 then IsDigits(s) && ParseNat(s) == i
    else |s| >= 1 && s[0] == '-' && IsDigits(s[1..]) && ParseNat(s[1..]) == -i
  }

  /** Decimal numeral of an integer, with a leading `-` when negative. */
  function IntToString(i: int): (r: string)
    ensures |r| >= 1 && IsNumeral(r, i)
    ensures r[0] == '-' || '0' <= r[0] <= '9'
  {
    if i < 0 then
      ParseNatToString(-i);
      var d := NatToString(-i);
      assert ("-" + d)[1..] == d;
      "-" + d
    else
      ParseNatToString(i);
      NatToString(i)
  }

  /** Value of a decimal numeral. */
  function ParseNat(s: string): nat
    requires IsDigits(s)
    decreases |s|
  {
    if |s| == 0 then 0
    else 10 * ParseNat(s[..|s| - 1]) + DigitValue(s[|s| - 1])
  }

  /** Reading back the numeral `NatToString` writes gives the number. */
  lemma {:induction false} ParseNatToString(n: nat)
    ensures ParseNat(NatToString(n)) == n
    decreases n
  {
    var r := NatToString(n);
    if n >= 10 {
      ParseNatToString(n / 10);
      assert r[..|r| - 1] == NatToString(n / 10);
    }
  }
}

=== FILE: wrappers.dfy ===
/** The optional-value datatype shared by the other modules. */
module Wrappers {

  /** A value that may be absent: JavaScript's `undefined`/`null` on the
      boundary of a call, or a lookup that found nothing. */
  datatype Option<+T> = None | Some(value: T) {

    /** The carried value, or `default` when there is none. */
    function GetOr(default: T): T {
      match this
      case Some(v) => v
      case None => default
    }
  }
}
